=== FILE: README.md ===
# Checkout and session storage, modelled in Dafny

This project models two parts of a shop front end:

- **The payment screen** (`Frontend/src/pages/Payment.jsx`):
  - the card form and its validation chain;
  - the field update;
  - the product lookup used when listing the cart;
  - the payment handler, which pays for a program enrollment or for the cart's products. After a paid order it removes the purchased lines from the cart cached in `localStorage`.
- **The session helpers** (`Frontend/src/utils/sessionManager.js`): eight functions that write, read and remove three fixed `localStorage` keys. These are the session (`userInfo`) and two offline caches (`cachedUserProfile`, `cachedUserEnrollments`).

Modules:

- `Wrappers`: `Option` and `Result`. `None` stands for JavaScript's `undefined`.
- `JsText`: the JavaScript string semantics the form depends on:
  - the `\s` character class;
  - `replace(/\s/g, '')` and `trim()`;
  - the StringNumericLiteral grammar of section 7.1.4.1 of ECMA-262, which decides whether `isNaN(s)` holds for a string.
- `Json`: JSON values and the JavaScript operations on them that the code uses:
  - property reads, truthiness, `===` and `String(x)`;
  - `JSON.stringify` and `JSON.parse`, as a concrete printer and parser. `JSON.parse(JSON.stringify(v))` is proved to give `v` back.
- `LocalStorage`: the `localStorage` object as a class over a string-to-string map.
- `SessionManager`: the eight helpers as methods on that store. The two cache writers are stated as a plain update of the map. The readers are proved against `ReadJson` and `LoggedIn`, and the two clearing helpers against `WithoutSessionData` and `WithoutAuthentication`.
- `Payment`:
  - the form's data, rules and field update;
  - `getProductDetails`, the product-id list, the address fallback and the local-cart filter, as functions;
  - the screen's opening (`MountError`) and its render gate (`RenderedScreen`, with the intended `IntendedScreen`). `Checkout.Shown` is what the screen shows as written; `Checkout.IntendedView` is what the corrected render would show;
  - the screen's state as the class `Checkout`. Its numeric test is a constant: `JsNumber` is the `isNaN` test as written. Its `HandlePay` is proved to leave the store, the error banner, the request and the navigation exactly as the specification function `PayEffect` describes.

The HTTP reply, the clock and the text of an exception thrown by the JavaScript engine are parameters.

## Model

| member | source | states |
|---|---|---|
| `LocalStorage.Lookup` | Frontend/src/utils/sessionManager.js:35 | `getItem` yields a value exactly when the key is stored, and then the stored value |
| `LocalStorage.Storage.GetItem` | Frontend/src/utils/sessionManager.js:35 | reads the stored value of a key, or nothing when it is absent, changing nothing |
| `LocalStorage.Storage.SetItem` | Frontend/src/utils/sessionManager.js:9 | afterwards the key maps to the new text and every other key is as before |
| `LocalStorage.Storage.RemoveItem` | Frontend/src/utils/sessionManager.js:79-81 | afterwards the key is gone and every other key is as before |
| `Json.Get` | Frontend/src/pages/Payment.jsx:102 | reading an own, non-inherited key is `undefined` exactly when the value is not an object or has no member with that key; otherwise it is the last member with that key |
| `Json.Stringify` | Frontend/src/utils/sessionManager.js:9 | `JSON.stringify` of a value is non-empty text whose first character starts a JSON value |
| `Json.Parse` | Frontend/src/utils/sessionManager.js:36 | `JSON.parse` of empty or all-whitespace text fails |
| `Json.ParseStringify` | Frontend/src/utils/sessionManager.js:7-41 | `JSON.parse(JSON.stringify(v))` gives back `v` for every value |
| `JsText.RemoveWhitespace` | Frontend/src/pages/Payment.jsx:110 | the result contains no `\s` character and is no longer than the input |
| `JsText.RemoveWhitespaceCounts` | Frontend/src/pages/Payment.jsx:110 | every non-whitespace character is kept as many times as it occurs; whitespace occurs zero times |
| `JsText.RemoveWhitespaceAppend` | Frontend/src/pages/Payment.jsx:110 | stripping a concatenation strips each part separately |
| `JsText.RemoveWhitespaceOfSolid` | Frontend/src/pages/Payment.jsx:110 | a string without whitespace is returned unchanged |
| `JsText.Trim` | Frontend/src/pages/Payment.jsx:123 | `trim()` is a slice of the input with only whitespace before and after it; it is empty exactly when every character is whitespace; a non-empty result starts and ends with non-whitespace |
| `JsText.IsNumericString` | Frontend/src/pages/Payment.jsx:111 | `!isNaN(s)` for a string: an empty or all-whitespace string counts as numeric (it reads as 0), and so does every non-empty string of ASCII digits |
| `JsText.NumericTrimIsLiteralChars` | Frontend/src/pages/Payment.jsx:111 | a string `isNaN` accepts has, once trimmed, only characters that can occur in a numeric literal: hexadecimal digits, sign, point, the radix letters `xXoObB` and the letters of `Infinity` |
| `JsText.ForeignCharIsNaN` | Frontend/src/pages/Payment.jsx:111 | a string holding any non-whitespace character outside those is `NaN` |
| `JsText.TrimOfSolidEnds` | Frontend/src/pages/Payment.jsx:123 | `trim()` leaves a string alone when neither end is whitespace |
| `SessionManager.CacheUserProfile` | Frontend/src/utils/sessionManager.js:7-14 | the store afterwards is the old one with `cachedUserProfile` set to the JSON text of the profile |
| `SessionManager.CacheUserEnrollments` | Frontend/src/utils/sessionManager.js:20-27 | the store afterwards is the old one with `cachedUserEnrollments` set to the JSON text of the enrollments |
| `SessionManager.ReadKey` | Frontend/src/utils/sessionManager.js:33-41 | reading a key returns what `ReadJson` gives for it and changes nothing |
| `SessionManager.GetCachedUserProfile` | Frontend/src/utils/sessionManager.js:33-41 | returns what `ReadJson` gives for `cachedUserProfile`: `null` if absent, empty or undecodable, else the decoded value |
| `SessionManager.GetCachedUserEnrollments` | Frontend/src/utils/sessionManager.js:47-55 | as above for `cachedUserEnrollments` |
| `SessionManager.GetCurrentUserInfo` | Frontend/src/utils/sessionManager.js:104-111 | as above for `userInfo` |
| `SessionManager.IsUserLoggedIn` | Frontend/src/utils/sessionManager.js:61-72 | true exactly when the stored session is non-empty and decodes to a truthy value whose `token` is truthy; a decoding failure gives false |
| `SessionManager.ClearAllCachedData` | Frontend/src/utils/sessionManager.js:77-86 | the store afterwards is the old one without the three session keys |
| `SessionManager.ClearAuthenticationOnly` | Frontend/src/utils/sessionManager.js:91-98 | the store afterwards is the old one without `userInfo` |
| `SessionManager.ReadAfterWrite` | Frontend/src/utils/sessionManager.js:7-55 | a value cached under a key reads back as that value, whatever the store held |
| `SessionManager.ReadAfterOtherWrite` | Frontend/src/utils/sessionManager.js:7-55 | writing one key does not change what any other key reads as |
| `SessionManager.CachingKeepsLogin` | Frontend/src/utils/sessionManager.js:7-72 | caching a profile or enrollments neither logs a user in nor out |
| `SessionManager.ReadJsonNullCases` | Frontend/src/utils/sessionManager.js:33-41 | a missing key, an empty value and an undecodable value each read as `null`; anything else reads as its decoded value |
| `SessionManager.LoggedInIffTruthyToken` | Frontend/src/utils/sessionManager.js:61-72 | with the session stored as `JSON.stringify(u)`, logged in exactly when `u` is an object with a truthy `token` |
| `SessionManager.NotLoggedInWithoutSession` | Frontend/src/utils/sessionManager.js:61-72 | no session, an undecodable session or a `null` session means not logged in |
| `SessionManager.ClearAllForgetsEverything` | Frontend/src/utils/sessionManager.js:77-86 | after clearing all, nobody is logged in, all three keys read `null`, and every other key is untouched |
| `SessionManager.ClearAuthenticationKeepsCaches` | Frontend/src/utils/sessionManager.js:91-98 | after clearing authentication, nobody is logged in, both caches read as before, and only `userInfo` is gone |
| `SessionManager.ClearingIsIdempotent` | Frontend/src/utils/sessionManager.js:77-98 | each clear is idempotent, and clearing all absorbs clearing authentication in either order |
| `Payment.WithField` | Frontend/src/pages/Payment.jsx:105-107 | the named field takes the new value and every other field keeps its old one |
| `Payment.Checkout.HandleChange` | Frontend/src/pages/Payment.jsx:105-107 | the form afterwards is the old form with just that field replaced |
| `Payment.Validate` | Frontend/src/pages/Payment.jsx:109-129 | an accepted form has 16 characters left after deleting whitespace, a month/year expiry, a 3-character CVC and a name that is not blank; an expiry rejection means the expiry is no month/year |
| `Payment.FirstFailingRuleWins` | Frontend/src/pages/Payment.jsx:109-129 | the rejection is the first failing rule in the order card number, expiry, CVC, name; the form is accepted exactly when all four hold |
| `Payment.Checkout.ValidatePaymentInfo` | Frontend/src/pages/Payment.jsx:109-129 | returns true exactly when the chain accepts with the screen's numeric test; the banner is cleared then, otherwise it holds the first failing rule's message; as written the screen then shows the error page with that message (`Shown`), while the corrected render keeps the form with the message in its banner (`IntendedView`) |
| `Payment.ExpiryPatternIsMonthYear` | Frontend/src/pages/Payment.jsx:115 | the expiry pattern accepts exactly a two-digit month 01–12, a slash and a two-digit year |
| `Payment.CardNumberRule` | Frontend/src/pages/Payment.jsx:110-111 | with the digits-only test, a card number passes exactly when 16 characters remain after deleting whitespace and all non-whitespace characters are digits |
| `Payment.DigitsOnlyIsStricter` | Frontend/src/pages/Payment.jsx:109-129 | every form the digits-only chain accepts, the `isNaN` chain accepts too |
| `Payment.AcceptedIffWellFormed` | Frontend/src/pages/Payment.jsx:109-129 | with the digits-only test, accepted exactly when the card number is 16 digits plus whitespace, the expiry is a month/year, the CVC is three digits and the name is not blank |
| `Payment.HexCardNumberSlipsThrough` | Frontend/src/pages/Payment.jsx:110-111 | `0x` followed by 14 hexadecimal digits passes the card-number rule as written and fails the digits-only one |
| `Payment.LooseCvcSlipsThrough` | Frontend/src/pages/Payment.jsx:119 | `d e d`, `0 x h`, a space before two digits and three whitespace characters pass the CVC rule as written and fail the digits-only one |
| `Payment.BlankCvc` | Frontend/src/pages/Payment.jsx:119 | three whitespace characters are numeric for `isNaN` but are not three digits |
| `Payment.ExponentCvc` | Frontend/src/pages/Payment.jsx:119 | a digit, `e` and a digit is numeric for `isNaN` but is not three digits |
| `Payment.HexCvc` | Frontend/src/pages/Payment.jsx:119 | `0x` and a hexadecimal digit is numeric for `isNaN` but is not three digits |
| `Payment.PaddedCvc` | Frontend/src/pages/Payment.jsx:119 | a space followed by two digits is numeric for `isNaN` but is not three digits |
| `Payment.FormExamples` | Frontend/src/pages/Payment.jsx:109-129 | "123" is refused as a card number, "13/25" as an expiry and "12" as a CVC; "04/26" and "123" are accepted |
| `Payment.ForeignCharInCardNumber` | Frontend/src/pages/Payment.jsx:110-111 | a card number holding a non-whitespace character that cannot occur in a numeric literal fails the card-number rule as written |
| `Payment.ForeignCardCharRefused` | Frontend/src/pages/Payment.jsx:109-113 | such a card number makes the screen's chain refuse the form with the card-number message, whatever the other fields hold |
| `Payment.ForeignCvcCharRefused` | Frontend/src/pages/Payment.jsx:109-125 | a CVC holding such a character fails the CVC rule as written, so the form is refused; with a good card number and expiry the refusal is the CVC message |
| `Payment.LettersCardNumberRefused` | Frontend/src/pages/Payment.jsx:110-111 | "zzzz zzzz zzzz zzzz" fails the card-number rule as written |
| `Payment.LettersCvcRefused` | Frontend/src/pages/Payment.jsx:119 | "abc" fails the CVC rule as written |
| `Payment.GroupedCardNumberAccepted` | Frontend/src/pages/Payment.jsx:110-111 | four groups of four digits separated by single spaces pass the card-number rule |
| `Payment.ProductIds` | Frontend/src/pages/Payment.jsx:186 | one product id per cart line, in the same order, each the line's `productId` |
| `Payment.ProductDetails` | Frontend/src/pages/Payment.jsx:101-103 | returns the first product whose `_id` is strictly equal to the id (`{}` if that product is falsy), or `{}` when none is; a `null` product reached first throws a TypeError |
| `Payment.DeliveryAddress` | Frontend/src/pages/Payment.jsx:187 | the given address if truthy, else the user's address if truthy, else "No address provided"; the result is always truthy |
| `Payment.PurchasedKeys` | Frontend/src/pages/Payment.jsx:199 | the purchased set holds exactly the `String()` texts of the product ids, and is empty exactly when there are no ids |
| `Payment.LineKey` | Frontend/src/pages/Payment.jsx:200 | a line without `productId` is keyed by "undefined"; a line whose `productId` is a string is keyed by that string |
| `Payment.RemainingLines` | Frontend/src/pages/Payment.jsx:199-200 | throws exactly when a line is `null`; otherwise keeps, in order and with their multiplicity, exactly the lines whose `String(productId)` was not purchased |
| `Payment.RemainingLocalCart` | Frontend/src/pages/Payment.jsx:198-201 | a missing or empty cached cart filters to the empty cart; stored text throws exactly when it does not decode, is not an array, or holds a `null` line |
| `Payment.LocalCartRoundTrip` | Frontend/src/pages/Payment.jsx:198-201 | a cart the screen stored itself reads back and filters like its lines; a missing cart filters to the empty cart |
| `Payment.PurchasedLinesAreGone` | Frontend/src/pages/Payment.jsx:198-201 | after filtering, no remaining line's id string equals a purchased id's string, and the cart is no longer |
| `Payment.PayEffect` | Frontend/src/pages/Payment.jsx:131-221 | a payment removes no key and writes only the keys of its branch; with no readable session it changes nothing, sends nothing, stays and shows the exception's text |
| `Payment.EnrollmentEffect` | Frontend/src/pages/Payment.jsx:143-182 | the enrollment branch writes only `paymentEnrollmentData` and `latestNotification`; a missing or `null` enrollment sends nothing; a rejection changes nothing; leaving means success, the profile view and the enrollment notification written |
| `Payment.OrderEffect` | Frontend/src/pages/Payment.jsx:183-214 | the order branch writes only `cricketCart` and `latestNotification`; a rejection changes nothing and shows the server's message; leaving means success, the orders view and the order notification written |
| `Payment.FailedPaymentWritesNothing` | Frontend/src/pages/Payment.jsx:131-221 | a rejected request or an unreadable session leaves the store as it was, stays on the screen and sets the banner; with no session no request is sent; a rejected order shows the server's message |
| `Payment.PaidOrderStoresRemaining` | Frontend/src/pages/Payment.jsx:185-213 | a paid order over a stored cart of non-null lines sends the selected ids with the delivery address, stores as the cart the JSON text of the filtered lines, and with a non-null reply goes to the orders view with no error |
| `Payment.PaidOrderReconcilesCart` | Frontend/src/pages/Payment.jsx:185-213 | a paid order sends the cart's product ids with a non-empty address, stores as the cart exactly the lines not bought (in order, multiplicities kept), and with a non-null reply goes to the orders view with no error |
| `Payment.SuccessLeavesNotification` | Frontend/src/pages/Payment.jsx:131-221 | leaving the screen implies success, and the stored notification decodes to the message, timestamp and type of the branch taken |
| `Payment.MountError` | Frontend/src/pages/Payment.jsx:38-64 | opening the screen asks to log in exactly when there is no session or user id; it has no error exactly when, besides, the stored session decodes to a non-null value (so reading its `token` does not throw; `{}` is sent as `Bearer undefined`) and the profile loaded as a non-null body; any other case is the profile failure, including a `null` body, whose render crashes in the source (see "Left out") |
| `Payment.SessionReadable` | Frontend/src/pages/Payment.jsx:136-139 | reading the session's `token` does not throw exactly when `userInfo` is stored, decodes, and is not `null`; a logged-in store is always readable |
| `Payment.EmailText` | Frontend/src/pages/Payment.jsx:58 | a falsy or missing profile email gives `''`; a string email is kept as it is |
| `Payment.PaymentError` | Frontend/src/pages/Payment.jsx:217 | the failure banner is "Error processing payment: ", then the message, then ". Please try again." |
| `Payment.RenderedScreen` | Frontend/src/pages/Payment.jsx:223-236 | the form is shown exactly when nothing loads and no error is set, so its banner slot is always empty; any error replaces the form by the error page |
| `Payment.RefusedFormHidesForm` | Frontend/src/pages/Payment.jsx:224 | as written, a refused form shows the error page, not the form with the refusal in its banner |
| `Payment.IntendedScreen` | Frontend/src/pages/Payment.jsx:348 | only a failure at opening replaces the form; after opening, the form stays and its banner shows the current error |
| `Payment.RendersAgreeWithoutError` | Frontend/src/pages/Payment.jsx:223-236 | the two renders agree while loading, at an opening failure, and whenever no error is set |
| `Payment.Checkout.constructor` | Frontend/src/pages/Payment.jsx:21-64 | once the opening requests have settled: the error is `MountError`'s; the user is the profile body when one was fetched, else `null`; the form starts empty except for country "India" and, when opening succeeded, the profile's email (`''` if falsy) |
| `Payment.Checkout.HandlePay` | Frontend/src/pages/Payment.jsx:131-221 | with the screen's numeric test, an invalid form only sets the banner; a valid one clears the loading flag and leaves store, banner, request and navigation as `PayEffect` says |
| `Payment.Checkout.PayAccepted` | Frontend/src/pages/Payment.jsx:135-214 | once the form is accepted, the store, banner, request and navigation are those of `PayEffect` |
| `Payment.Checkout.PayForEnrollment` | Frontend/src/pages/Payment.jsx:143-182 | the enrollment branch's store, banner, request and navigation are those of `EnrollmentEffect` |
| `Payment.Checkout.PayForOrder` | Frontend/src/pages/Payment.jsx:183-214 | the order branch's store, banner, request and navigation are those of `OrderEffect` |

## Left out

- Payment.MountError: a `null` profile body yields the profile failure, and so does `Payment.Checkout.constructor`, which then keeps `user` as `null` and the form empty. In the source the `email` read at line 58 runs in a state updater that React calls during rendering, outside the `try` at lines 48-61. The render throws, the `catch` does not set the banner, and the screen is torn down. The model has no outcome for a crashed render.
- Payment.Checkout.constructor: models the screen once its opening requests have settled. The loading phase before that (line 30) is not modelled. The profile and catalogue bodies are parameters; HTTP is not modelled. The cart-order request (lines 67-81) fills `cartOrder`, which is never read, and is left out. A truthy email that is not a string is kept as its `String()` text.
- `getCurrentUserId` and `isLoggedIn` live in `Frontend/src/utils/getCurrentUser`, which is not part of this model. The user id and `isLoggedIn()`'s answer are parameters.
- The navigation state is a parameter. Its defaulting when no state was passed (lines 11-20) is not modelled. The cart it holds is taken to be an array of objects; a missing cart or a `null` line would throw at line 186.
- HTTP is not modelled. The outcome of the one payment request is the `Reply` parameter.
- The request bodies' constant members are not modelled: `paymentMethod: 'card'`, `status: 'success'`, the URLs and the `Authorization` header.
- `paymentDate` and the notification timestamp come from the clock. The timestamp is a parameter; `paymentDate` is left out.
- The text of an exception the JavaScript engine throws (a TypeError or SyntaxError) is the `faultMessage` parameter.
- Rendering, `alert`, console logging and the page change itself are not modelled. The next page is the returned `Navigation` value.
- `localStorage` is taken never to fail. A quota error, or storage being disabled, is not modelled. These are the failures the session helpers catch and log.
- JSON numbers are integers only. Text with a fraction or an exponent does not decode in this model, although `JSON.parse` reads it. Number-to-text conversion at 1e21 and above is not modelled.
- These JSON details are not modelled:
  - `JSON.stringify` placing integer-like keys first;
  - lone surrogate escapes;
  - escaped surrogate pairs such as `"\ud83d\ude00"`: `JSON.parse` joins them into one character, but this model rejects the text. A stored value holding one then reads as `null`;
  - duplicate keys in an object: `JSON.parse` keeps only the last, but this model keeps every member and `Stringify` writes them all back. `Get` does read the last one, as JavaScript does;
  - integers of magnitude above 2^53: JavaScript rounds them to the nearest double, but this model keeps them exact;
  - inherited keys such as `toString`, and `length` on strings and arrays: `Get` reads only an object's own members;
  - `JSON.stringify(undefined)`, which passing `undefined` to the cache helpers would store.
- `handleChange` with a key other than the six form fields (which would add a property) is not modelled.

## Findings

| source | as written | input that shows it | evidently intended | confidence | as-written member | corrected member |
|---|---|---|---|---|---|---|
| Frontend/src/pages/Payment.jsx:111 | the card number passes when, after deleting whitespace, it has 16 characters and `isNaN` is false, so any text `Number()` reads is accepted | "0x1234567890abcd" | exactly 16 ASCII digits, as the message "valid 16-digit card number" says | high; not executed | `Payment.HexCardNumberSlipsThrough` | `Payment.CardNumberRule` |
| Frontend/src/pages/Payment.jsx:119 | the CVC passes when it has 3 characters and `isNaN` is false | "1e2", "0x1", " 12", "   " | exactly 3 ASCII digits, as the message "valid 3-digit CVC" says | high; not executed | `Payment.LooseCvcSlipsThrough` | `Payment.AcceptedIffWellFormed` |
| Frontend/src/pages/Payment.jsx:224 | any error shows the error page instead of the form, so after a refused form or a failed payment the form cannot be corrected, and the banner at line 348 is never shown | card number "123", then Pay | a refused form or a failed payment shows its message in the banner above the Pay button and keeps the form; only an opening failure shows the error page | medium; not executed | `Payment.RefusedFormHidesForm` | `Payment.IntendedScreen` |

=== FILE: js_text.dfy ===
/**
 * The pieces of JavaScript's string semantics that the checkout form relies on:
 * the `\s` character class (also what `trim()` strips and what `Number()` skips
 * around a numeral), `replace(/\s/g, '')`, `trim()`, and the grammar that decides
 * whether `Number(s)` is NaN, which is what `isNaN(s)` tests on a string.
 */
module JsText {

  /** A member of ECMAScript's WhiteSpace or LineTerminator sets, i.e. of the regular-expression class `\s`. */
  predicate IsJsWhitespace(c: char) {
    || c == '\t' || c == '\n' || c == '\U{000B}' || c == '\U{000C}' || c == '\r' || c == ' '
    || c == '\U{00A0}' || c == '\U{1680}' || ('\U{2000}' <= c <= '\U{200A}')
    || c == '\U{2028}' || c == '\U{2029}' || c == '\U{202F}' || c == '\U{205F}'
    || c == '\U{3000}' || c == '\U{FEFF}'
  }

  /** The class `\d`: ASCII digits only. */
  predicate IsAsciiDigit(c: char) {
    '0' <= c <= '9'
  }

  predicate IsHexDigit(c: char) {
    IsAsciiDigit(c) || 'a' <= c <= 'f' || 'A' <= c <= 'F'
  }

  predicate AllAsciiDigits(s: string) {
    forall i :: 0 <= i < |s| ==> IsAsciiDigit(s[i])
  }

  /** `s.replace(/\s/g, '')`: every whitespace character deleted, the others kept in order. */
  function RemoveWhitespace(s: string): (r: string)
    ensures |r| <= |s|
    ensures forall i :: 0 <= i < |r| ==> !IsJsWhitespace(r[i])
  {
    if s == [] then []
    else
      var rest := RemoveWhitespace(s[1..]);
      if IsJsWhitespace(s[0]) then rest else [s[0]] + rest
  }

  /** Deleting whitespace keeps every other character as many times as it occurred. */
  lemma {:induction false} RemoveWhitespaceCounts(s: string)
    ensures forall c :: multiset(RemoveWhitespace(s))[c] == if IsJsWhitespace(c) then 0 else multiset(s)[c]
  {
    if s != [] {
      RemoveWhitespaceCounts(s[1..]);
      assert s == [s[0]] + s[1..];
    }
  }

  /** Deleting whitespace from a concatenation deletes it from each part. */
  lemma {:induction false} RemoveWhitespaceAppend(a: string, b: string)
    ensures RemoveWhitespace(a + b) == RemoveWhitespace(a) + RemoveWhitespace(b)
  {
    if a != [] {
      assert (a + b)[1..] == a[1..] + b;
      RemoveWhitespaceAppend(a[1..], b);
    } else {
      assert a + b == b;
    }
  }

  /** A string with no whitespace in it is left as it is. */
  lemma {:induction false} RemoveWhitespaceOfSolid(s: string)
    requires forall i :: 0 <= i < |s| ==> !IsJsWhitespace(s[i])
    ensures RemoveWhitespace(s) == s
  {
    if s != [] {
      RemoveWhitespaceOfSolid(s[1..]);
    }
  }

  /** `trimStart()`: the suffix left after dropping the leading whitespace. */
  function TrimStart(s: string): (r: string)
    ensures |r| <= |s| && r == s[|s| - |r|..]
    ensures forall i :: 0 <= i < |s| - |r| ==> IsJsWhitespace(s[i])
    ensures r != [] ==> !IsJsWhitespace(r[0])
  {
    if s != [] && IsJsWhitespace(s[0]) then
      var r := TrimStart(s[1..]);
      assert s[1..][|s| - 1 - |r|..] == s[|s| - |r|..];
      assert forall i :: 1 <= i < |s| ==> s[i] == s[1..][i - 1];
      r
    else s
  }

  /** `trimEnd()`: the prefix left after dropping the trailing whitespace. */
  function TrimEnd(s: string): (r: string)
    ensures |r| <= |s| && r == s[..|r|]
    ensures forall i :: |r| <= i < |s| ==> IsJsWhitespace(s[i])
    ensures r != [] ==> !IsJsWhitespace(r[|r| - 1])
  {
    if s != [] && IsJsWhitespace(s[|s| - 1]) then TrimEnd(s[..|s| - 1]) else s
  }

  /**
   * `trim()`: the slice `s[i..j]` with only whitespace outside it and
   * non-whitespace at both of its ends; empty exactly when the string holds
   * nothing but whitespace.
   */
  function Trim(s: string): (r: string)
    ensures exists i, j :: && 0 <= i <= j <= |s| && r == s[i..j]
                           && (forall k :: 0 <= k < i ==> IsJsWhitespace(s[k]))
                           && (forall k :: j <= k < |s| ==> IsJsWhitespace(s[k]))
    ensures r == [] <==> forall i :: 0 <= i < |s| ==> IsJsWhitespace(s[i])
    ensures r != [] ==> !IsJsWhitespace(r[0]) && !IsJsWhitespace(r[|r| - 1])
  {
    var t := TrimStart(s);
    var r := TrimEnd(t);
    TrimmedSlice(s, t, r);
    r
  }

  /**
   * Dropping whitespace from the front of `s` (giving `t`) and then from the
   * back of `t` (giving `r`) leaves a slice of `s` with whitespace on either
   * side, empty exactly when `s` is all whitespace.
   */
  lemma TrimmedSlice(s: string, t: string, r: string)
    requires |t| <= |s| && t == s[|s| - |t|..]
    requires forall k :: 0 <= k < |s| - |t| ==> IsJsWhitespace(s[k])
    requires t != [] ==> !IsJsWhitespace(t[0])
    requires |r| <= |t| && r == t[..|r|]
    requires forall k :: |r| <= k < |t| ==> IsJsWhitespace(t[k])
    requires r != [] ==> !IsJsWhitespace(r[|r| - 1])
    ensures exists i, j :: && 0 <= i <= j <= |s| && r == s[i..j]
                           && (forall k :: 0 <= k < i ==> IsJsWhitespace(s[k]))
                           && (forall k :: j <= k < |s| ==> IsJsWhitespace(s[k]))
    ensures r == [] <==> forall i :: 0 <= i < |s| ==> IsJsWhitespace(s[i])
    ensures r != [] ==> !IsJsWhitespace(r[0]) && !IsJsWhitespace(r[|r| - 1])
  {
    var i := |s| - |t|;
    var j := i + |r|;
    forall m | 0 <= m < |r|
      ensures r[m] == s[i + m]
    {
      assert r[m] == t[m];
    }
    assert r == s[i..j];
    forall k | j <= k < |s|
      ensures IsJsWhitespace(s[k])
    {
      assert s[k] == t[k - i];
    }
    if r != [] {
      assert r[0] == t[0] == s[i];
    }
  }

  /** `trim()` leaves a string alone when neither end is whitespace. */
  lemma TrimOfSolidEnds(s: string)
    requires s != [] && !IsJsWhitespace(s[0]) && !IsJsWhitespace(s[|s| - 1])
    ensures Trim(s) == s
  {
    assert TrimStart(s) == s;
    assert TrimEnd(s) == s;
  }

  /** The number of leading ASCII digits of `s`. */
  function DigitRun(s: string): (k: nat)
    ensures k <= |s|
    ensures forall i :: 0 <= i < k ==> IsAsciiDigit(s[i])
    ensures k < |s| ==> !IsAsciiDigit(s[k])
  {
    if s != [] && IsAsciiDigit(s[0]) then 1 + DigitRun(s[1..]) else 0
  }

  /**
   * `!isNaN(s)` for a string `s`: `Number(s)` converts the string by the
   * StringNumericLiteral grammar of ECMAScript (section 7.1.4.1 of ECMA-262):
   * surrounding whitespace is ignored, an empty or all-whitespace string is 0,
   * and otherwise the rest must be a decimal literal (optional sign, digits with
   * an optional point and exponent, or `Infinity`) or an unsigned binary, octal
   * or hexadecimal integer literal.
   */
  function IsNumericString(s: string): (r: bool)
    ensures (forall i :: 0 <= i < |s| ==> IsJsWhitespace(s[i])) ==> r
    ensures s != [] && AllAsciiDigits(s) ==> r
  {
    DigitStringIsDecimal(s);
    var t := Trim(s);
    t == [] || NonDecimalIntegerLiteral(t) || StrDecimalLiteral(t)
  }

  /** A string whose `trim()` is a run of ASCII digits is numeric. */
  lemma TrimmedDigitsAreNumeric(s: string)
    requires Trim(s) != [] && AllAsciiDigits(Trim(s))
    ensures IsNumericString(s)
  {
    DigitStringIsDecimal(Trim(s));
  }

  /** A non-empty run of ASCII digits is its own trimmed text and a decimal literal. */
  lemma DigitStringIsDecimal(s: string)
    ensures s != [] && AllAsciiDigits(s) ==> Trim(s) == s && StrDecimalLiteral(s)
  {
    if s != [] && AllAsciiDigits(s) {
      TrimOfSolidEnds(s);
      DigitRunOfAllDigits(s);
    }
  }

  lemma {:induction false} DigitRunOfAllDigits(s: string)
    requires AllAsciiDigits(s)
    ensures DigitRun(s) == |s|
  {
    if s != [] {
      DigitRunOfAllDigits(s[1..]);
    }
  }

  predicate NonDecimalIntegerLiteral(t: string) {
    && |t| >= 3 && t[0] == '0'
    && (|| ((t[1] == 'x' || t[1] == 'X') && forall i :: 2 <= i < |t| ==> IsHexDigit(t[i]))
        || ((t[1] == 'o' || t[1] == 'O') && forall i :: 2 <= i < |t| ==> '0' <= t[i] <= '7')
        || ((t[1] == 'b' || t[1] == 'B') && forall i :: 2 <= i < |t| ==> '0' <= t[i] <= '1'))
  }

  predicate StrDecimalLiteral(t: string) {
    if t != [] && (t[0] == '+' || t[0] == '-') then StrUnsignedDecimalLiteral(t[1..])
    else StrUnsignedDecimalLiteral(t)
  }

  predicate StrUnsignedDecimalLiteral(u: string) {
    u == "Infinity" || FiniteDecimalLiteral(u)
  }

  /** Digits with an optional point and more digits (at least one digit in all), then an optional exponent part. */
  predicate FiniteDecimalLiteral(u: string) {
    var k := DigitRun(u);
    if k < |u| && u[k] == '.' then
      var f := DigitRun(u[k + 1..]);
      (k > 0 || f > 0) && ExponentFrom(u, k + 1 + f)
    else
      k > 0 && ExponentFrom(u, k)
  }

  /** From position `p` to the end: nothing, or `e`/`E`, an optional sign and at least one digit. */
  predicate ExponentFrom(u: string, p: int) {
    || p == |u|
    || (&& 0 <= p && p + 2 <= |u| && (u[p] == 'e' || u[p] == 'E')
        && var q := if u[p + 1] == '+' || u[p + 1] == '-' then p + 2 else p + 1;
           q < |u| && forall i :: q <= i < |u| ==> IsAsciiDigit(u[i]))
  }

  /**
   * The characters a StringNumericLiteral can be spelled with once trimmed:
   * hexadecimal digits (which include `e`/`E`), the signs, the point, the
   * radix letters and the letters of `Infinity`.
   */
  predicate IsNumericLiteralChar(c: char) {
    || IsHexDigit(c) || c == '+' || c == '-' || c == '.' || c == 'x' || c == 'X' || c == 'o' || c == 'O'
    || c == 'I' || c == 'i' || c == 'n' || c == 't' || c == 'y'
  }

  /**
   * `isNaN` refuses every string holding, anywhere, a character that is
   * neither whitespace nor one a numeric literal can be spelled with (such
   * as "abc" or "zzzz zzzz zzzz zzzz").
   */
  lemma ForeignCharIsNaN(s: string, k: int)
    requires 0 <= k < |s| && !IsJsWhitespace(s[k]) && !IsNumericLiteralChar(s[k])
    ensures !IsNumericString(s)
  {
    var m := TrimKeepsSolidChar(s, k);
    NumericTrimIsLiteralChars(s);
  }

  /** A character that is not whitespace survives `trim()`. */
  lemma TrimKeepsSolidChar(s: string, k: int) returns (m: int)
    requires 0 <= k < |s| && !IsJsWhitespace(s[k])
    ensures 0 <= m < |Trim(s)| && Trim(s)[m] == s[k]
  {
    var t := TrimStart(s);
    var r := TrimEnd(t);
    assert Trim(s) == r;
    m := SolidCharIndex(s, t, r, k);
  }

  lemma SolidCharIndex(s: string, t: string, r: string, k: int) returns (m: int)
    requires t == TrimStart(s) && r == TrimEnd(t)
    requires 0 <= k < |s| && !IsJsWhitespace(s[k])
    ensures 0 <= m < |r| && r[m] == s[k]
  {
    SolidCharInSlice(s, t, r, k);
    m := k - (|s| - |t|);
  }

  lemma SolidCharInSlice(s: string, t: string, r: string, k: int)
    requires |t| <= |s| && t == s[|s| - |t|..]
    requires forall m :: 0 <= m < |s| - |t| ==> IsJsWhitespace(s[m])
    requires |r| <= |t| && r == t[..|r|]
    requires forall m :: |r| <= m < |t| ==> IsJsWhitespace(t[m])
    requires 0 <= k < |s| && !IsJsWhitespace(s[k])
    ensures 0 <= k - (|s| - |t|) < |r| && r[k - (|s| - |t|)] == s[k]
  {
    var i := |s| - |t|;
    assert s[k] == t[k - i];
  }

  /** Every character of a numeric string's trimmed text is a numeric-literal character. */
  lemma NumericTrimIsLiteralChars(s: string)
    ensures IsNumericString(s) ==> forall i :: 0 <= i < |Trim(s)| ==> IsNumericLiteralChar(Trim(s)[i])
  {
    var t := Trim(s);
    if !IsNumericString(s) {
    } else if NonDecimalIntegerLiteral(t) {
      NonDecimalChars(t);
    } else if t != [] {
      DecimalChars(t);
    }
  }

  lemma NonDecimalChars(t: string)
    requires NonDecimalIntegerLiteral(t)
    ensures forall i :: 0 <= i < |t| ==> IsNumericLiteralChar(t[i])
  {
    forall i | 0 <= i < |t|
      ensures IsNumericLiteralChar(t[i])
    {
      if i >= 2 {
        assert IsHexDigit(t[i]);
      }
    }
  }

  lemma DecimalChars(t: string)
    requires StrDecimalLiteral(t)
    ensures forall i :: 0 <= i < |t| ==> IsNumericLiteralChar(t[i])
  {
    if t != [] && (t[0] == '+' || t[0] == '-') {
      var u := t[1..];
      UnsignedDecimalChars(u);
      forall i | 1 <= i < |t|
        ensures IsNumericLiteralChar(t[i])
      {
        assert t[i] == u[i - 1];
      }
    } else {
      UnsignedDecimalChars(t);
    }
  }

  lemma UnsignedDecimalChars(u: string)
    requires StrUnsignedDecimalLiteral(u)
    ensures forall i :: 0 <= i < |u| ==> IsNumericLiteralChar(u[i])
  {
    if u == "Infinity" {
      InfinityChars(u);
    } else {
      FiniteDecimalChars(u, DigitRun(u));
    }
  }

  /** The finite forms: digits, an optional point with digits, an optional exponent part. */
  lemma FiniteDecimalChars(u: string, k: int)
    requires FiniteDecimalLiteral(u) && k == DigitRun(u)
    ensures forall i :: 0 <= i < |u| ==> IsNumericLiteralChar(u[i])
  {
    if k < |u| && u[k] == '.' {
      PointedDecimalChars(u, k);
    } else {
      PlainDecimalChars(u, k);
    }
  }

  lemma PointedDecimalChars(u: string, k: int)
    requires FiniteDecimalLiteral(u) && k == DigitRun(u) && k < |u| && u[k] == '.'
    ensures forall i :: 0 <= i < |u| ==> IsNumericLiteralChar(u[i])
  {
    var v := u[k + 1..];
    PointedChars(u, v, k, DigitRun(v));
  }

  lemma PlainDecimalChars(u: string, k: int)
    requires FiniteDecimalLiteral(u) && k == DigitRun(u) && !(k < |u| && u[k] == '.')
    ensures forall i :: 0 <= i < |u| ==> IsNumericLiteralChar(u[i])
  {
    PlainChars(u, k);
  }

  /** Digits and an exponent part. */
  lemma PlainChars(u: string, k: int)
    requires 0 <= k <= |u| && forall i :: 0 <= i < k ==> IsAsciiDigit(u[i])
    requires ExponentFrom(u, k)
    ensures forall i :: 0 <= i < |u| ==> IsNumericLiteralChar(u[i])
  {
    ExponentCharsFrom(u, k);
  }

  lemma InfinityChars(u: string)
    requires u == "Infinity"
    ensures forall i :: 0 <= i < |u| ==> IsNumericLiteralChar(u[i])
  {
  }

  /** Digits, a point, digits and an exponent part. */
  lemma PointedChars(u: string, v: string, k: int, f: int)
    requires 0 <= k < |u| && u[k] == '.' && v == u[k + 1..] && 0 <= f <= |v|
    requires forall i :: 0 <= i < k ==> IsAsciiDigit(u[i])
    requires forall i :: 0 <= i < f ==> IsAsciiDigit(v[i])
    requires ExponentFrom(u, k + 1 + f)
    ensures forall i :: 0 <= i < |u| ==> IsNumericLiteralChar(u[i])
  {
    ExponentCharsFrom(u, k + 1 + f);
    forall i | k < i < k + 1 + f
      ensures IsNumericLiteralChar(u[i])
    {
      assert u[i] == v[i - k - 1];
    }
  }

  /** An exponent part that runs from position `p` to the end is spelled with numeric-literal characters. */
  lemma ExponentCharsFrom(u: string, p: int)
    requires ExponentFrom(u, p)
    ensures forall i :: p <= i < |u| ==> IsNumericLiteralChar(u[i])
  {
  }
}

=== FILE: json.dfy ===
/**
 * Decoded JSON values as the browser code sees them, the few JavaScript
 * operations the modelled code applies to them (property read, truthiness,
 * `String(x)`, `===`), and a JSON text codec: `Stringify` for
 * `JSON.stringify` and `Parse` for `JSON.parse`, with the round trip
 * `Parse(Stringify(v)) == Some(v)` proved.
 *
 * Numbers are integers; a text holding a fraction or an exponent does not
 * parse.
 */
module Json {
  import opened Wrappers
  import opened JsText

  datatype Json =
    | Null
    | Bool(b: bool)
    | Num(n: int)
    | Str(s: string)
    | Arr(items: seq<Json>)
    | Obj(members: seq<Member>)

  /** One `"key": value` pair of an object, in the order the text gave them. */
  datatype Member = Member(key: string, value: Json)

  /** The exceptions the modelled code can raise while it runs. */
  datatype Fault = TypeError | SyntaxError

  // ---------------------------------------------------------------------
  // JavaScript's view of a decoded value
  // ---------------------------------------------------------------------

  /**
   * The property read `v.key` on a decoded value (`None` is `undefined`), for
   * an own, non-inherited key such as the ones the code reads (`_id`,
   * `token`, `address`, `productId`, `email`, `order`, `payment`, `data`):
   * only objects carry such properties, and when a key repeats the last
   * occurrence is the one that is read.
   */
  function Get(v: Json, key: string): (r: Option<Json>)
    ensures r.None? <==> !v.Obj? || forall i :: 0 <= i < |v.members| ==> v.members[i].key != key
    ensures r.Some? ==> v.members[LastIndex(v.members, key)] == Member(key, r.value)
  {
    if v.Obj? && LastIndex(v.members, key) >= 0 then Some(v.members[LastIndex(v.members, key)].value) else None
  }

  /** The position of the last member named `key`, or -1 when there is none. */
  function LastIndex(ms: seq<Member>, key: string): (i: int)
    ensures -1 <= i < |ms|
    ensures i >= 0 ==> ms[i].key == key
    ensures forall j :: i < j < |ms| ==> ms[j].key != key
  {
    if ms == [] then -1
    else if ms[|ms| - 1].key == key then |ms| - 1
    else
      var i := LastIndex(ms[..|ms| - 1], key);
      assert forall j :: 0 <= j < |ms| - 1 ==> ms[..|ms| - 1][j] == ms[j];
      i
  }

  /** JavaScript truthiness: `undefined`, `null`, `false`, `0` and `""` are falsy, every object is truthy. */
  predicate Truthy(v: Option<Json>) {
    match v
    case None => false
    case Some(Null) => false
    case Some(Bool(b)) => b
    case Some(Num(n)) => n != 0
    case Some(Str(s)) => s != []
    case Some(Arr(_)) => true
    case Some(Obj(_)) => true
  }

  /**
   * Strict equality `a === b`. Primitives compare by value; objects and
   * arrays by identity, and two separately decoded objects are never the
   * same object.
   */
  predicate StrictEquals(a: Option<Json>, b: Option<Json>) {
    match (a, b)
    case (None, None) => true
    case (Some(x), Some(y)) => x == y && !x.Arr? && !x.Obj?
    case _ => false
  }

  /** `String(v)`. */
  function ToJsString(v: Option<Json>): string {
    match v
    case None => "undefined"
    case Some(x) => ValueToString(x)
  }

  function ValueToString(v: Json): string
    decreases v
  {
    match v
    case Null => "null"
    case Bool(b) => if b then "true" else "false"
    case Num(n) => NumberText(n)
    case Str(s) => s
    case Arr(items) => JoinText(items)
    case Obj(_) => "[object Object]"
  }

  /** `Array.prototype.join(",")`, which writes `null` elements as empty strings. */
  function JoinText(items: seq<Json>): string
    decreases items
  {
    if items == [] then ""
    else
      var first := if items[0] == Null then "" else ValueToString(items[0]);
      if |items| == 1 then first else first + "," + JoinText(items[1..])
  }

  // ---------------------------------------------------------------------
  // Integers in decimal
  // ---------------------------------------------------------------------

  function DigitChar(d: nat): (c: char)
    requires d < 10
    ensures IsAsciiDigit(c) && (c == '0' <==> d == 0)
  {
    ('0' as int + d) as char
  }

  /** The shortest decimal numeral of `n`: no leading zero unless `n` is 0. */
  function Digits(n: nat): (r: string)
    ensures r != [] && AllAsciiDigits(r)
    ensures r[0] == '0' <==> n == 0
    decreases n
  {
    if n < 10 then [DigitChar(n)] else Digits(n / 10) + [DigitChar(n % 10)]
  }

  /** The value of a string of decimal digits. */
  function DigitsValue(ds: string): nat
    requires AllAsciiDigits(ds)
  {
    if ds == [] then 0
    else DigitsValue(ds[..|ds| - 1]) * 10 + (ds[|ds| - 1] as int - '0' as int)
  }

  lemma {:induction false} DigitsValueOfDigits(n: nat)
    ensures DigitsValue(Digits(n)) == n
    decreases n
  {
    if n >= 10 {
      var ds := Digits(n);
      assert ds[..|ds| - 1] == Digits(n / 10);
      DigitsValueOfDigits(n / 10);
    }
  }

  /** How `JSON.stringify` and `String()` write an integer. */
  function NumberText(n: int): string {
    if n < 0 then "-" + Digits(-n) else Digits(n)
  }

  // ---------------------------------------------------------------------
  // JSON.stringify
  // ---------------------------------------------------------------------

  predicate StartsValue(c: char) {
    c == 'n' || c == 't' || c == 'f' || c == '"' || c == '[' || c == '{' || c == '-' || IsAsciiDigit(c)
  }

  /** JSON text for `v`, without whitespace. */
  function Stringify(v: Json): (r: string)
    ensures r != [] && StartsValue(r[0])
    decreases v
  {
    match v
    case Null => "null"
    case Bool(b) => if b then "true" else "false"
    case Num(n) => NumberText(n)
    case Str(s) => Quote(s)
    case Arr(items) => "[" + ItemsText(items) + "]"
    case Obj(ms) => "{" + MembersText(ms) + "}"
  }

  function ItemsText(items: seq<Json>): (r: string)
    ensures items != [] ==> r != [] && StartsValue(r[0])
    decreases items
  {
    if items == [] then ""
    else if |items| == 1 then Stringify(items[0])
    else Stringify(items[0]) + "," + ItemsText(items[1..])
  }

  function MemberText(m: Member): (r: string)
    ensures r != [] && r[0] == '"'
    decreases m
  {
    Quote(m.key) + ":" + Stringify(m.value)
  }

  function MembersText(ms: seq<Member>): (r: string)
    ensures ms != [] ==> r != [] && r[0] == '"'
    decreases ms
  {
    if ms == [] then ""
    else if |ms| == 1 then MemberText(ms[0])
    else MemberText(ms[0]) + "," + MembersText(ms[1..])
  }

  function Quote(s: string): string {
    "\"" + EscapeText(s) + "\""
  }

  function EscapeText(s: string): string {
    if s == [] then "" else EscapeChar(s[0]) + EscapeText(s[1..])
  }

  function HexChar(d: nat): (c: char)
    requires d < 16
    ensures IsHexDigit(c)
  {
    if d < 10 then ('0' as int + d) as char else ('a' as int + d - 10) as char
  }

  /**
   * The quote and the backslash are escaped, the five control characters
   * with a short escape use it, the other control characters become
   * `\u00XX` with lower-case hex digits, and everything else is written as is.
   */
  function EscapeChar(c: char): string {
    if c == '"' then "\\\""
    else if c == '\\' then "\\\\"
    else if c == '\U{0008}' then "\\b"
    else if c == '\U{000C}' then "\\f"
    else if c == '\n' then "\\n"
    else if c == '\r' then "\\r"
    else if c == '\t' then "\\t"
    else if c < ' ' then "\\u00" + [HexChar(c as int / 16), HexChar(c as int % 16)]
    else [c]
  }

  // ---------------------------------------------------------------------
  // JSON.parse
  // ---------------------------------------------------------------------

  predicate IsJsonWhitespace(c: char) {
    c == ' ' || c == '\t' || c == '\n' || c == '\r'
  }

  function SkipWhitespace(s: string): (r: string)
    ensures |r| <= |s|
    ensures (forall i :: 0 <= i < |s| ==> IsJsonWhitespace(s[i])) ==> r == []
  {
    if s != [] && IsJsonWhitespace(s[0]) then SkipWhitespace(s[1..]) else s
  }

  /** `JSON.parse(text)`: `None` where it throws a SyntaxError. */
  function Parse(text: string): (r: Option<Json>)
    ensures (forall i :: 0 <= i < |text| ==> IsJsonWhitespace(text[i])) ==> r.None?
  {
    match ParseValue(text)
    case None => None
    case Some((v, rest)) => if SkipWhitespace(rest) == [] then Some(v) else None
  }

  /** One value after optional whitespace, and the text that follows it. */
  function ParseValue(s: string): (r: Option<(Json, string)>)
    ensures r.Some? ==> |r.value.1| < |s|
    decreases |s|, 0
  {
    var t := SkipWhitespace(s);
    if t == [] then None
    else if t[0] == 'n' then Keyword(t, "null", Null)
    else if t[0] == 't' then Keyword(t, "true", Bool(true))
    else if t[0] == 'f' then Keyword(t, "false", Bool(false))
    else if t[0] == '"' then
      match ParseStringBody(t[1..])
      case None => None
      case Some((str, rest)) => Some((Str(str), rest))
    else if t[0] == '[' then ParseArray(t[1..])
    else if t[0] == '{' then ParseObject(t[1..])
    else ParseNumber(t)
  }

  function Keyword(t: string, word: string, v: Json): (r: Option<(Json, string)>)
    requires word != []
    ensures r.Some? ==> |r.value.1| < |t|
  {
    if |word| <= |t| && t[..|word|] == word then Some((v, t[|word|..])) else None
  }

  /** The elements of an array, `s` starting just after its `[`. */
  function ParseArray(s: string): (r: Option<(Json, string)>)
    ensures r.Some? ==> |r.value.1| < |s|
    decreases |s|, 2
  {
    var t := SkipWhitespace(s);
    if t != [] && t[0] == ']' then Some((Arr([]), t[1..]))
    else
      match ParseElements(s)
      case None => None
      case Some((items, rest)) => Some((Arr(items), rest))
  }

  /** `value (, value)* ]`. */
  function ParseElements(s: string): (r: Option<(seq<Json>, string)>)
    ensures r.Some? ==> |r.value.1| < |s|
    decreases |s|, 1
  {
    match ParseValue(s)
    case None => None
    case Some((v, r0)) =>
      var r1 := SkipWhitespace(r0);
      if r1 == [] then None
      else if r1[0] == ']' then Some(([v], r1[1..]))
      else if r1[0] == ',' then
        match ParseElements(r1[1..])
        case None => None
        case Some((vs, r2)) => Some(([v] + vs, r2))
      else None
  }

  /** The members of an object, `s` starting just after its `{`. */
  function ParseObject(s: string): (r: Option<(Json, string)>)
    ensures r.Some? ==> |r.value.1| < |s|
    decreases |s|, 2
  {
    var t := SkipWhitespace(s);
    if t != [] && t[0] == '}' then Some((Obj([]), t[1..]))
    else
      match ParseMembers(s)
      case None => None
      case Some((ms, rest)) => Some((Obj(ms), rest))
  }

  /** `member (, member)* }`. */
  function ParseMembers(s: string): (r: Option<(seq<Member>, string)>)
    ensures r.Some? ==> |r.value.1| < |s|
    decreases |s|, 1
  {
    match ParseMember(s)
    case None => None
    case Some((m, r0)) =>
      var r1 := SkipWhitespace(r0);
      if r1 == [] then None
      else if r1[0] == '}' then Some(([m], r1[1..]))
      else if r1[0] == ',' then
        match ParseMembers(r1[1..])
        case None => None
        case Some((ms, r2)) => Some(([m] + ms, r2))
      else None
  }

  /** `"key" : value`. */
  function ParseMember(s: string): (r: Option<(Member, string)>)
    ensures r.Some? ==> |r.value.1| < |s|
    decreases |s|, 0
  {
    var t := SkipWhitespace(s);
    if t == [] || t[0] != '"' then None
    else
      match ParseStringBody(t[1..])
      case None => None
      case Some((key, r0)) =>
        var r1 := SkipWhitespace(r0);
        if r1 == [] || r1[0] != ':' then None
        else
          match ParseValue(r1[1..])
          case None => None
          case Some((v, r2)) => Some((Member(key, v), r2))
  }

  /** The characters of a string literal up to its closing quote, `s` starting just after the opening one. */
  function ParseStringBody(s: string): (r: Option<(string, string)>)
    ensures r.Some? ==> |r.value.1| < |s|
    decreases |s|
  {
    if s == [] then None
    else if s[0] == '"' then Some(([], s[1..]))
    else if s[0] == '\\' then
      match ParseEscape(s[1..])
      case None => None
      case Some((c, rest)) =>
        match ParseStringBody(rest)
        case None => None
        case Some((t, rest')) => Some(([c] + t, rest'))
    else if s[0] < ' ' then None
    else
      match ParseStringBody(s[1..])
      case None => None
      case Some((t, rest)) => Some(([s[0]] + t, rest))
  }

  function HexValue(c: char): (d: nat)
    requires IsHexDigit(c)
    ensures d < 16
  {
    if IsAsciiDigit(c) then c as int - '0' as int
    else if 'a' <= c <= 'f' then c as int - 'a' as int + 10
    else c as int - 'A' as int + 10
  }

  /**
   * The character an escape stands for, `s` starting just after the
   * backslash. A `\u` escape naming a UTF-16 surrogate is not accepted.
   */
  function ParseEscape(s: string): (r: Option<(char, string)>)
    ensures r.Some? ==> |r.value.1| < |s|
  {
    if s == [] then None
    else if s[0] == '"' || s[0] == '\\' || s[0] == '/' then Some((s[0], s[1..]))
    else if s[0] == 'b' then Some(('\U{0008}', s[1..]))
    else if s[0] == 'f' then Some(('\U{000C}', s[1..]))
    else if s[0] == 'n' then Some(('\n', s[1..]))
    else if s[0] == 'r' then Some(('\r', s[1..]))
    else if s[0] == 't' then Some(('\t', s[1..]))
    else if s[0] == 'u' && |s| >= 5 && IsHexDigit(s[1]) && IsHexDigit(s[2]) && IsHexDigit(s[3]) && IsHexDigit(s[4]) then
      var code := HexValue(s[1]) * 4096 + HexValue(s[2]) * 256 + HexValue(s[3]) * 16 + HexValue(s[4]);
      if 0xD800 <= code < 0xE000 then None else Some((code as char, s[5..]))
    else None
  }

  /** `-? (0 | [1-9][0-9]*)`. */
  function ParseNumber(t: string): (r: Option<(Json, string)>)
    ensures r.Some? ==> |r.value.1| < |t|
  {
    if t != [] && t[0] == '-' then
      match ParseNatural(t[1..])
      case None => None
      case Some((k, rest)) => Some((Num(0 - k), rest))
    else
      match ParseNatural(t)
      case None => None
      case Some((k, rest)) => Some((Num(k), rest))
  }

  function ParseNatural(t: string): (r: Option<(nat, string)>)
    ensures r.Some? ==> |r.value.1| < |t|
  {
    if t == [] || !IsAsciiDigit(t[0]) then None
    else if t[0] == '0' then Some((0, t[1..]))
    else
      var k := DigitRun(t);
      Some((DigitsValue(t[..k]), t[k..]))
  }

  // ---------------------------------------------------------------------
  // The round trip
  // ---------------------------------------------------------------------

  /** What may follow a value's text so that it reads back alone: anything but a digit. */
  predicate NoLeadingDigit(rest: string) {
    rest == [] || !IsAsciiDigit(rest[0])
  }

  /** `JSON.parse(JSON.stringify(v))` gives `v` back. */
  lemma {:induction false} ParseStringify(v: Json)
    ensures Parse(Stringify(v)) == Some(v)
  {
    ValueRoundTrip(v, []);
    assert Stringify(v) + [] == Stringify(v);
  }

  lemma {:induction false} ValueRoundTrip(v: Json, rest: string)
    requires NoLeadingDigit(rest)
    ensures ParseValue(Stringify(v) + rest) == Some((v, rest))
    decreases v
  {
    match v
    case Null => KeywordStep(Stringify(v) + rest, "null", v, rest);
    case Bool(b) => KeywordStep(Stringify(v) + rest, if b then "true" else "false", v, rest);
    case Num(n) =>
      NumberRoundTrip(n, rest);
      NumberStep(Stringify(v) + rest);
    case Str(s) =>
      EscapeRoundTrip(s, rest);
      StringStep(s, rest);
    case Arr(items) =>
      if items != [] {
        ElementsRoundTrip(items, rest);
      }
      ArrayStep(items, rest);
    case Obj(ms) =>
      if ms != [] {
        MembersRoundTrip(ms, rest);
      }
      ObjectStep(ms, rest);
  }

  lemma KeywordStep(t: string, word: string, v: Json, rest: string)
    requires word == "null" || word == "true" || word == "false"
    requires t == word + rest
    requires v == (if word == "null" then Null else Bool(word == "true"))
    ensures ParseValue(t) == Some((v, rest))
  {
    assert t[0] == word[0] && t[..|word|] == word && t[|word|..] == rest;
  }

  lemma NumberStep(t: string)
    requires t != [] && (t[0] == '-' || IsAsciiDigit(t[0]))
    ensures ParseValue(t) == ParseNumber(t)
  {
  }

  lemma StringStep(s: string, rest: string)
    requires ParseStringBody(EscapeText(s) + "\"" + rest) == Some((s, rest))
    ensures ParseValue(Stringify(Str(s)) + rest) == Some((Str(s), rest))
  {
    QuoteShape(s, rest);
    ParseValueString(Stringify(Str(s)) + rest);
  }

  lemma QuoteShape(s: string, rest: string)
    ensures (Stringify(Str(s)) + rest)[0] == '"'
    ensures (Stringify(Str(s)) + rest)[1..] == EscapeText(s) + "\"" + rest
  {
    assert Stringify(Str(s)) + rest == "\"" + (EscapeText(s) + "\"" + rest);
  }

  lemma ParseValueString(t: string)
    requires t != [] && t[0] == '"'
    ensures ParseValue(t) == match ParseStringBody(t[1..])
                             case None => None
                             case Some((str, rest)) => Some((Str(str), rest))
  {
    assert SkipWhitespace(t) == t;
  }

  lemma ArrayStep(items: seq<Json>, rest: string)
    requires items != [] ==> ParseElements(ItemsText(items) + "]" + rest) == Some((items, rest))
    ensures ParseValue(Stringify(Arr(items)) + rest) == Some((Arr(items), rest))
  {
    var t := Stringify(Arr(items)) + rest;
    var inner := ItemsText(items) + "]" + rest;
    assert t[0] == '[' && t[1..] == inner;
    if items == [] {
      assert inner[1..] == rest;
    } else {
      assert inner[0] == ItemsText(items)[0];
    }
  }

  lemma ObjectStep(ms: seq<Member>, rest: string)
    requires ms != [] ==> ParseMembers(MembersText(ms) + "}" + rest) == Some((ms, rest))
    ensures ParseValue(Stringify(Obj(ms)) + rest) == Some((Obj(ms), rest))
  {
    var t := Stringify(Obj(ms)) + rest;
    var inner := MembersText(ms) + "}" + rest;
    assert t[0] == '{' && t[1..] == inner;
    ParseValueObject(t);
    if ms == [] {
      assert inner[0] == '}' && inner[1..] == rest;
    } else {
      assert inner[0] == '"';
    }
    ParseObjectStep(inner, ms, rest);
  }

  lemma ParseValueObject(t: string)
    requires t != [] && t[0] == '{'
    ensures ParseValue(t) == ParseObject(t[1..])
  {
    assert SkipWhitespace(t) == t;
  }

  lemma ParseObjectStep(s: string, ms: seq<Member>, rest: string)
    requires ms == [] ==> s != [] && s[0] == '}' && s[1..] == rest
    requires ms != [] ==> s != [] && s[0] == '"' && ParseMembers(s) == Some((ms, rest))
    ensures ParseObject(s) == Some((Obj(ms), rest))
  {
    assert SkipWhitespace(s) == s;
  }

  lemma {:induction false} ElementsRoundTrip(items: seq<Json>, rest: string)
    requires items != []
    ensures ParseElements(ItemsText(items) + "]" + rest) == Some((items, rest))
    decreases items
  {
    ItemsTextShape(items, rest);
    if |items| == 1 {
      ValueRoundTrip(items[0], "]" + rest);
      LastElementStep(Stringify(items[0]) + ("]" + rest), items[0], rest);
      assert [items[0]] == items;
    } else {
      var tail := ItemsText(items[1..]) + "]" + rest;
      ValueRoundTrip(items[0], "," + tail);
      ElementsRoundTrip(items[1..], rest);
      NextElementStep(Stringify(items[0]) + ("," + tail), items[0], tail, items[1..], rest);
      assert [items[0]] + items[1..] == items;
    }
  }

  lemma ItemsTextShape(items: seq<Json>, rest: string)
    requires items != []
    ensures |items| == 1 ==> ItemsText(items) + "]" + rest == Stringify(items[0]) + ("]" + rest)
    ensures |items| > 1 ==>
              ItemsText(items) + "]" + rest == Stringify(items[0]) + ("," + (ItemsText(items[1..]) + "]" + rest))
  {
    if |items| == 1 {
      AppendAssoc(Stringify(items[0]), "]", rest);
    } else {
      AppendAssoc5(Stringify(items[0]), ",", ItemsText(items[1..]), "]", rest);
    }
  }

  lemma AppendAssoc(a: string, b: string, c: string)
    ensures a + b + c == a + (b + c)
  {
  }

  lemma AppendAssoc5(a: string, b: string, c: string, d: string, e: string)
    ensures a + b + c + d + e == a + (b + (c + d + e))
  {
  }

  lemma LastElementStep(s: string, v: Json, rest: string)
    requires ParseValue(s) == Some((v, "]" + rest))
    ensures ParseElements(s) == Some(([v], rest))
  {
    assert ("]" + rest)[0] == ']' && ("]" + rest)[1..] == rest;
  }

  lemma NextElementStep(s: string, v: Json, tail: string, vs: seq<Json>, rest: string)
    requires ParseValue(s) == Some((v, "," + tail))
    requires ParseElements(tail) == Some((vs, rest))
    ensures ParseElements(s) == Some(([v] + vs, rest))
  {
    assert ("," + tail)[0] == ',' && ("," + tail)[1..] == tail;
  }

  lemma {:induction false} MembersRoundTrip(ms: seq<Member>, rest: string)
    requires ms != []
    ensures ParseMembers(MembersText(ms) + "}" + rest) == Some((ms, rest))
    decreases ms
  {
    MembersTextShape(ms, rest);
    if |ms| == 1 {
      MemberRoundTrip(ms[0], "}" + rest);
      LastMemberStep(MemberText(ms[0]) + ("}" + rest), ms[0], rest);
      assert [ms[0]] == ms;
    } else {
      var tail := MembersText(ms[1..]) + "}" + rest;
      MemberRoundTrip(ms[0], "," + tail);
      MembersRoundTrip(ms[1..], rest);
      NextMemberStep(MemberText(ms[0]) + ("," + tail), ms[0], tail, ms[1..], rest);
      assert [ms[0]] + ms[1..] == ms;
    }
  }

  lemma MembersTextShape(ms: seq<Member>, rest: string)
    requires ms != []
    ensures |ms| == 1 ==> MembersText(ms) + "}" + rest == MemberText(ms[0]) + ("}" + rest)
    ensures |ms| > 1 ==>
              MembersText(ms) + "}" + rest == MemberText(ms[0]) + ("," + (MembersText(ms[1..]) + "}" + rest))
  {
    if |ms| == 1 {
      AppendAssoc(MemberText(ms[0]), "}", rest);
    } else {
      AppendAssoc5(MemberText(ms[0]), ",", MembersText(ms[1..]), "}", rest);
    }
  }

  lemma LastMemberStep(s: string, m: Member, rest: string)
    requires ParseMember(s) == Some((m, "}" + rest))
    ensures ParseMembers(s) == Some(([m], rest))
  {
    assert ("}" + rest)[0] == '}' && ("}" + rest)[1..] == rest;
  }

  lemma NextMemberStep(s: string, m: Member, tail: string, ms: seq<Member>, rest: string)
    requires ParseMember(s) == Some((m, "," + tail))
    requires ParseMembers(tail) == Some((ms, rest))
    ensures ParseMembers(s) == Some(([m] + ms, rest))
  {
    assert ("," + tail)[0] == ',' && ("," + tail)[1..] == tail;
  }

  lemma {:induction false} MemberRoundTrip(m: Member, rest: string)
    requires NoLeadingDigit(rest)
    ensures ParseMember(MemberText(m) + rest) == Some((m, rest))
    decreases m
  {
    var afterKey := ":" + Stringify(m.value) + rest;
    MemberTextShape(m, rest);
    EscapeRoundTrip(m.key, afterKey);
    ValueRoundTrip(m.value, rest);
    ParseMemberStep(MemberText(m) + rest, m.key, afterKey, m.value, rest);
  }

  lemma MemberTextShape(m: Member, rest: string)
    ensures (MemberText(m) + rest)[0] == '"'
    ensures (MemberText(m) + rest)[1..] == EscapeText(m.key) + "\"" + (":" + Stringify(m.value) + rest)
    ensures (":" + Stringify(m.value) + rest)[1..] == Stringify(m.value) + rest
  {
    var q := EscapeText(m.key);
    var after := ":" + Stringify(m.value) + rest;
    assert MemberText(m) + rest == "\"" + (q + "\"" + after) by {
      AppendAssoc5("\"", q, "\"", ":", Stringify(m.value));
      AppendAssoc5("\"" + q, "\"", ":", Stringify(m.value), rest);
      AppendAssoc5("\"", q, "\"", ":" + Stringify(m.value), rest);
    }
    AppendAssoc(":", Stringify(m.value), rest);
  }

  lemma ParseMemberStep(s: string, key: string, r0: string, v: Json, r1: string)
    requires s != [] && s[0] == '"'
    requires ParseStringBody(s[1..]) == Some((key, r0))
    requires r0 != [] && r0[0] == ':'
    requires ParseValue(r0[1..]) == Some((v, r1))
    ensures ParseMember(s) == Some((Member(key, v), r1))
  {
  }

  lemma {:induction false} NumberRoundTrip(n: int, rest: string)
    requires NoLeadingDigit(rest)
    ensures ParseNumber(NumberText(n) + rest) == Some((Num(n), rest))
  {
    var t := NumberText(n) + rest;
    if n < 0 {
      AppendAssoc("-", Digits(-n), rest);
      assert t[0] == '-' && t[1..] == Digits(-n) + rest;
      NaturalRoundTrip(-n, rest);
    } else {
      assert t == Digits(n) + rest;
      assert IsAsciiDigit(t[0]);
      NaturalRoundTrip(n, rest);
    }
  }

  lemma NaturalRoundTrip(n: nat, rest: string)
    requires NoLeadingDigit(rest)
    ensures ParseNatural(Digits(n) + rest) == Some((n, rest))
  {
    var ds := Digits(n);
    var t := ds + rest;
    if n == 0 {
      assert ds == "0";
      assert t[1..] == rest;
    } else {
      var k := DigitRun(t);
      DigitRunOfDigits(ds, rest);
      assert t[..k] == ds && t[k..] == rest;
      DigitsValueOfDigits(n);
    }
  }

  lemma {:induction false} DigitRunOfDigits(ds: string, rest: string)
    requires AllAsciiDigits(ds) && NoLeadingDigit(rest)
    ensures DigitRun(ds + rest) == |ds|
  {
    if ds != [] {
      assert (ds + rest)[1..] == ds[1..] + rest;
      DigitRunOfDigits(ds[1..], rest);
    } else {
      assert ds + rest == rest;
    }
  }

  lemma {:induction false} EscapeRoundTrip(s: string, rest: string)
    ensures ParseStringBody(EscapeText(s) + "\"" + rest) == Some((s, rest))
    decreases |s|
  {
    if s == [] {
      assert EscapeText(s) + "\"" + rest == "\"" + rest;
      assert ("\"" + rest)[1..] == rest;
    } else {
      var tail := EscapeText(s[1..]) + "\"" + rest;
      assert EscapeText(s) + "\"" + rest == EscapeChar(s[0]) + tail;
      EscapeRoundTrip(s[1..], rest);
      EscapeCharRoundTrip(s[0], tail, s[1..], rest);
      assert [s[0]] + s[1..] == s;
    }
  }

  lemma EscapeCharRoundTrip(c: char, tail: string, t: string, rest: string)
    requires ParseStringBody(tail) == Some((t, rest))
    ensures ParseStringBody(EscapeChar(c) + tail) == Some(([c] + t, rest))
  {
    var text := EscapeChar(c) + tail;
    if c == '"' || c == '\\' || c == '\U{0008}' || c == '\U{000C}' || c == '\n' || c == '\r' || c == '\t' {
      assert text[1..][1..] == tail;
    } else if c < ' ' {
      var hi, lo := c as int / 16, c as int % 16;
      HexValueOfHexChar(hi);
      HexValueOfHexChar(lo);
      assert text[1..][5..] == tail;
      assert text[1..][3] == HexChar(hi) && text[1..][4] == HexChar(lo);
      assert (hi * 16 + lo) as char == c;
    } else {
      assert text[1..] == tail;
    }
  }

  lemma HexValueOfHexChar(d: nat)
    requires d < 16
    ensures HexValue(HexChar(d)) == d
  {
  }
}

=== FILE: local_storage.dfy ===
/**
 * The browser's `localStorage`: one mutable map from string keys to string
 * values, reached through `getItem`, `setItem` and `removeItem`.
 */
module LocalStorage {
  import opened Wrappers

  /** `getItem` on a snapshot of the store: `None` is the `null` returned for an absent key. */
  function Lookup(items: map<string, string>, key: string): (r: Option<string>)
    ensures r.Some? <==> key in items
    ensures r.Some? ==> r.value == items[key]
  {
    if key in items then Some(items[key]) else None
  }

  class Storage {
    var items: map<string, string>

    constructor (initial: map<string, string>)
      ensures items == initial
    {
      items := initial;
    }

    method GetItem(key: string) returns (r: Option<string>)
      ensures r == Lookup(items, key)
    {
      r := if key in items then Some(items[key]) else None;
    }

    method SetItem(key: string, value: string)
      modifies this
      ensures items == old(items)[key := value]
    {
      items := items[key := value];
    }

    method RemoveItem(key: string)
      modifies this
      ensures items == old(items) - {key}
    {
      items := items - {key};
    }
  }
}

=== FILE: payment.dfy ===
/**
 * The checkout screen: the card form and its validation chain, the field
 * update, the product lookup used when rendering the cart, and the payment
 * handler, whose order branch removes the purchased lines from the locally
 * cached cart.
 */
module Payment {
  import opened Wrappers
  import opened JsText
  import opened Json
  import opened LocalStorage
  import SessionManager

  // =====================================================================
  // The card form
  // =====================================================================

  datatype PaymentInfo = PaymentInfo(
    cardNumber: string,
    expiryDate: string,
    cvc: string,
    cardholderName: string,
    country: string,
    email: string)

  /** The form as the screen first shows it. */
  const InitialPaymentInfo := PaymentInfo("", "", "", "", "India", "")

  /** The keys `handleChange` is called with. */
  datatype FormField = CardNumber | ExpiryDate | Cvc | CardholderName | Country | Email

  function FieldValue(info: PaymentInfo, field: FormField): string {
    match field
    case CardNumber => info.cardNumber
    case ExpiryDate => info.expiryDate
    case Cvc => info.cvc
    case CardholderName => info.cardholderName
    case Country => info.country
    case Email => info.email
  }

  /** `handleChange(field, value)`: the record `{ ...prev, [field]: value }`. */
  function WithField(info: PaymentInfo, field: FormField, value: string): (r: PaymentInfo)
    ensures FieldValue(r, field) == value
    ensures forall g :: g != field ==> FieldValue(r, g) == FieldValue(info, g)
  {
    match field
    case CardNumber => info.(cardNumber := value)
    case ExpiryDate => info.(expiryDate := value)
    case Cvc => info.(cvc := value)
    case CardholderName => info.(cardholderName := value)
    case Country => info.(country := value)
    case Email => info.(email := value)
  }

  // =====================================================================
  // Validation
  // =====================================================================

  /** The four ways the form is refused, in the order they are tested. */
  datatype Rejection = InvalidCardNumber | InvalidExpiry | InvalidCvc | MissingCardholderName

  function Message(r: Rejection): string {
    match r
    case InvalidCardNumber => "Please enter a valid 16-digit card number."
    case InvalidExpiry => "Please enter a valid expiry date (MM/YY)."
    case InvalidCvc => "Please enter a valid 3-digit CVC."
    case MissingCardholderName => "Please enter the cardholder name."
  }

  /**
   * What stands for "is numeric" in the card-number and CVC rules:
   * `JsNumber` is the `!isNaN(s)` test the form performs, `DigitsOnly`
   * the ASCII-digits test its messages promise.
   */
  datatype NumericCheck = JsNumber | DigitsOnly

  predicate Numeric(check: NumericCheck, s: string) {
    match check
    case JsNumber => IsNumericString(s)
    case DigitsOnly => AllAsciiDigits(s)
  }

  /** Card number: after deleting all whitespace, non-empty, 16 characters long and numeric. */
  predicate CardNumberOk(cardNumber: string, check: NumericCheck) {
    var digits := RemoveWhitespace(cardNumber);
    digits != [] && |digits| == 16 && Numeric(check, digits)
  }

  /** Expiry: the whole string matches `^(0[1-9]|1[0-2])\/\d{2}$`. */
  predicate ExpiryOk(e: string) {
    && |e| == 5
    && ((e[0] == '0' && '1' <= e[1] <= '9') || (e[0] == '1' && '0' <= e[1] <= '2'))
    && e[2] == '/' && IsAsciiDigit(e[3]) && IsAsciiDigit(e[4])
  }

  /** CVC: non-empty, 3 characters long and numeric (nothing is stripped first). */
  predicate CvcOk(cvc: string, check: NumericCheck) {
    cvc != [] && |cvc| == 3 && Numeric(check, cvc)
  }

  /** Cardholder name: something left after `trim()`. */
  predicate NameOk(name: string) {
    Trim(name) != []
  }

  /** `validatePaymentInfo`: the first failing rule, or `None` when the form is accepted. */
  function Validate(info: PaymentInfo, check: NumericCheck): (r: Option<Rejection>)
    ensures r.None? ==>
              && |RemoveWhitespace(info.cardNumber)| == 16 && IsMonthYear(info.expiryDate) && |info.cvc| == 3
              && exists i :: 0 <= i < |info.cardholderName| && !IsJsWhitespace(info.cardholderName[i])
    ensures r == Some(InvalidExpiry) ==> !IsMonthYear(info.expiryDate)
  {
    ExpiryPatternIsMonthYear(info.expiryDate);
    if !CardNumberOk(info.cardNumber, check) then Some(InvalidCardNumber)
    else if !ExpiryOk(info.expiryDate) then Some(InvalidExpiry)
    else if !CvcOk(info.cvc, check) then Some(InvalidCvc)
    else if !NameOk(info.cardholderName) then Some(MissingCardholderName)
    else None
  }

  /** The rules run in a fixed order and the first one that fails decides the rejection. */
  lemma FirstFailingRuleWins(info: PaymentInfo, check: NumericCheck)
    ensures Validate(info, check) == Some(InvalidCardNumber) <==> !CardNumberOk(info.cardNumber, check)
    ensures Validate(info, check) == Some(InvalidExpiry) <==>
              CardNumberOk(info.cardNumber, check) && !ExpiryOk(info.expiryDate)
    ensures Validate(info, check) == Some(InvalidCvc) <==>
              CardNumberOk(info.cardNumber, check) && ExpiryOk(info.expiryDate) && !CvcOk(info.cvc, check)
    ensures Validate(info, check) == Some(MissingCardholderName) <==>
              && CardNumberOk(info.cardNumber, check) && ExpiryOk(info.expiryDate) && CvcOk(info.cvc, check)
              && !NameOk(info.cardholderName)
    ensures Validate(info, check) == None <==>
              && CardNumberOk(info.cardNumber, check) && ExpiryOk(info.expiryDate) && CvcOk(info.cvc, check)
              && NameOk(info.cardholderName)
  {
  }

  function TwoDigits(n: nat): string
    requires n < 100
  {
    [DigitChar(n / 10), DigitChar(n % 10)]
  }

  /** An expiry spelled out: month 1..12 and year 0..99, both as two digits, around a slash. */
  predicate IsMonthYear(e: string) {
    exists mm: nat, yy: nat :: 1 <= mm <= 12 && yy < 100 && e == TwoDigits(mm) + "/" + TwoDigits(yy)
  }

  /** The expiry pattern accepts exactly the month/year strings. */
  lemma ExpiryPatternIsMonthYear(e: string)
    ensures ExpiryOk(e) <==> IsMonthYear(e)
  {
    if ExpiryOk(e) {
      var mm := HexValue(e[0]) * 10 + HexValue(e[1]);
      var yy := HexValue(e[3]) * 10 + HexValue(e[4]);
      assert TwoDigits(mm) == e[..2];
      assert TwoDigits(yy) == e[3..];
      assert e == TwoDigits(mm) + "/" + TwoDigits(yy);
    }
    if IsMonthYear(e) {
      var mm: nat, yy: nat :| 1 <= mm <= 12 && yy < 100 && e == TwoDigits(mm) + "/" + TwoDigits(yy);
      assert e[0] == DigitChar(mm / 10) && e[1] == DigitChar(mm % 10);
    }
  }

  /**
   * With the digits-only test, a card number is accepted exactly when
   * deleting its whitespace leaves 16 characters and every character that is
   * not whitespace is an ASCII digit.
   */
  lemma CardNumberRule(s: string)
    ensures CardNumberOk(s, DigitsOnly) <==>
              |RemoveWhitespace(s)| == 16 &&
              forall i :: 0 <= i < |s| && !IsJsWhitespace(s[i]) ==> IsAsciiDigit(s[i])
  {
    var r := RemoveWhitespace(s);
    RemoveWhitespaceCounts(s);
    if AllAsciiDigits(r) {
      forall i | 0 <= i < |s| && !IsJsWhitespace(s[i])
        ensures IsAsciiDigit(s[i])
      {
        assert multiset(s)[s[i]] > 0;
        assert s[i] in multiset(r);
      }
    }
    if forall i :: 0 <= i < |s| && !IsJsWhitespace(s[i]) ==> IsAsciiDigit(s[i]) {
      forall i | 0 <= i < |r|
        ensures IsAsciiDigit(r[i])
      {
        assert r[i] in multiset(r);
        assert r[i] in multiset(s);
      }
    }
  }

  /** Every form the digits-only chain accepts, the `isNaN` chain accepts too. */
  lemma DigitsOnlyIsStricter(info: PaymentInfo)
    ensures Validate(info, DigitsOnly).None? ==> Validate(info, JsNumber).None?
  {
  }

  /**
   * With the digits-only test the form is accepted exactly when the card
   * number is 16 digits once whitespace is deleted, the expiry is a month and
   * a two-digit year, the CVC is three digits and the name is not blank.
   */
  lemma AcceptedIffWellFormed(info: PaymentInfo)
    ensures Validate(info, DigitsOnly).None? <==>
              && |RemoveWhitespace(info.cardNumber)| == 16
              && (forall i :: 0 <= i < |info.cardNumber| && !IsJsWhitespace(info.cardNumber[i]) ==>
                                IsAsciiDigit(info.cardNumber[i]))
              && IsMonthYear(info.expiryDate)
              && |info.cvc| == 3 && AllAsciiDigits(info.cvc)
              && exists i :: 0 <= i < |info.cardholderName| && !IsJsWhitespace(info.cardholderName[i])
  {
    CardNumberRule(info.cardNumber);
    ExpiryPatternIsMonthYear(info.expiryDate);
  }

  /**
   * The `isNaN` test lets a hexadecimal literal through as a card number:
   * `0x` followed by 14 hexadecimal digits, such as "0x1234567890abcd".
   */
  lemma HexCardNumberSlipsThrough(s: string)
    requires |s| == 16 && s[0] == '0' && s[1] == 'x'
    requires forall i :: 2 <= i < |s| ==> IsHexDigit(s[i])
    ensures CardNumberOk(s, JsNumber)
    ensures !CardNumberOk(s, DigitsOnly)
  {
    assert forall i :: 0 <= i < |s| ==> !IsJsWhitespace(s[i]) by {
      assert forall i :: 2 <= i < |s| ==> '0' <= s[i] <= 'f';
    }
    RemoveWhitespaceOfSolid(s);
    assert IsNumericString(s) by {
      TrimOfSolidEnds(s);
      assert NonDecimalIntegerLiteral(s);
    }
    assert !AllAsciiDigits(s) by {
      assert !IsAsciiDigit(s[1]);
    }
  }

  /**
   * The `isNaN` test lets three-character CVCs through that are not three
   * digits: a digit, `e` and a digit (such as "1e2"); `0x` and a hexadecimal
   * digit (such as "0x1"); a space before two digits (such as " 12"); and
   * three whitespace characters (such as "   ", which `Number()` reads as 0).
   */
  lemma LooseCvcSlipsThrough(a: char, b: char, h: char, w: char)
    requires IsAsciiDigit(a) && IsAsciiDigit(b) && IsHexDigit(h) && IsJsWhitespace(w)
    ensures CvcOk([a, 'e', b], JsNumber) && !CvcOk([a, 'e', b], DigitsOnly)
    ensures CvcOk(['0', 'x', h], JsNumber) && !CvcOk(['0', 'x', h], DigitsOnly)
    ensures CvcOk([' ', a, b], JsNumber) && !CvcOk([' ', a, b], DigitsOnly)
    ensures CvcOk([w, w, w], JsNumber) && !CvcOk([w, w, w], DigitsOnly)
  {
    ExponentCvc(a, b);
    HexCvc(h);
    PaddedCvc(a, b);
    BlankCvc(w);
  }

  lemma BlankCvc(w: char)
    requires IsJsWhitespace(w)
    ensures CvcOk([w, w, w], JsNumber) && !CvcOk([w, w, w], DigitsOnly)
  {
    var s := [w, w, w];
    assert forall i :: 0 <= i < |s| ==> IsJsWhitespace(s[i]);
    assert !AllAsciiDigits(s) by {
      assert !IsAsciiDigit(s[0]);
    }
  }

  lemma ExponentCvc(a: char, b: char)
    requires IsAsciiDigit(a) && IsAsciiDigit(b)
    ensures CvcOk([a, 'e', b], JsNumber) && !CvcOk([a, 'e', b], DigitsOnly)
  {
    var s := [a, 'e', b];
    TrimOfSolidEnds(s);
    assert DigitRun(s) == 1 by {
      assert s[1..] == ['e', b];
      assert DigitRun(['e', b]) == 0;
    }
    assert ExponentFrom(s, 1);
    assert StrDecimalLiteral(s) by {
      assert StrUnsignedDecimalLiteral(s);
    }
    assert !AllAsciiDigits(s) by {
      assert !IsAsciiDigit(s[1]);
    }
  }

  lemma HexCvc(h: char)
    requires IsHexDigit(h)
    ensures CvcOk(['0', 'x', h], JsNumber) && !CvcOk(['0', 'x', h], DigitsOnly)
  {
    var s := ['0', 'x', h];
    TrimOfSolidEnds(s);
    assert NonDecimalIntegerLiteral(s) by {
      assert forall i :: 2 <= i < |s| ==> s[i] == h;
    }
    assert !AllAsciiDigits(s) by {
      assert !IsAsciiDigit(s[1]);
    }
  }

  lemma PaddedCvc(a: char, b: char)
    requires IsAsciiDigit(a) && IsAsciiDigit(b)
    ensures CvcOk([' ', a, b], JsNumber) && !CvcOk([' ', a, b], DigitsOnly)
  {
    var s := [' ', a, b];
    assert IsNumericString(s) by {
      PaddedIsNumeric(a, b);
    }
    assert !AllAsciiDigits(s) by {
      assert !IsAsciiDigit(s[0]);
    }
  }

  lemma PaddedIsNumeric(a: char, b: char)
    requires IsAsciiDigit(a) && IsAsciiDigit(b)
    ensures IsNumericString([' ', a, b])
  {
    TrimPadded(a, b);
    assert AllAsciiDigits([a, b]);
    TrimmedDigitsAreNumeric([' ', a, b]);
  }

  lemma TrimPadded(a: char, b: char)
    requires !IsJsWhitespace(a) && !IsJsWhitespace(b)
    ensures Trim([' ', a, b]) == [a, b]
  {
    assert [' ', a, b][1..] == [a, b];
    assert TrimStart([a, b]) == [a, b];
    assert TrimStart([' ', a, b]) == [a, b];
    assert TrimEnd([a, b]) == [a, b];
  }

  /** The worked examples: malformed inputs fail under either test, well-formed ones pass. */
  lemma FormExamples()
    ensures !CardNumberOk("123", JsNumber) && !CardNumberOk("123", DigitsOnly)
    ensures !ExpiryOk("13/25") && ExpiryOk("04/26")
    ensures !CvcOk("12", JsNumber) && CvcOk("123", DigitsOnly)
  {
    RemoveWhitespaceOfSolid("123");
  }

  /**
   * The refusing side of the card-number rule as written: a card number
   * holding a character that is neither whitespace nor one a numeric
   * literal is spelled with (such as `z`) is not a number for `isNaN`.
   */
  lemma ForeignCharInCardNumber(cardNumber: string, k: int)
    requires 0 <= k < |cardNumber|
    requires !IsJsWhitespace(cardNumber[k]) && !IsNumericLiteralChar(cardNumber[k])
    ensures !CardNumberOk(cardNumber, JsNumber)
  {
    var digits := RemoveWhitespace(cardNumber);
    var c := cardNumber[k];
    RemoveWhitespaceCounts(cardNumber);
    assert c in multiset(cardNumber);
    assert c in multiset(digits);
    var m :| 0 <= m < |digits| && digits[m] == c;
    ForeignCharIsNaN(digits, m);
  }

  /** As written, such a card number is refused first, with the card-number message. */
  lemma ForeignCardCharRefused(info: PaymentInfo, k: int)
    requires 0 <= k < |info.cardNumber|
    requires !IsJsWhitespace(info.cardNumber[k]) && !IsNumericLiteralChar(info.cardNumber[k])
    ensures Validate(info, JsNumber) == Some(InvalidCardNumber)
  {
    ForeignCharInCardNumber(info.cardNumber, k);
  }

  /** As written, a CVC holding such a character is refused, with the CVC message once the earlier rules pass. */
  lemma ForeignCvcCharRefused(info: PaymentInfo, k: int)
    requires 0 <= k < |info.cvc| && !IsJsWhitespace(info.cvc[k]) && !IsNumericLiteralChar(info.cvc[k])
    ensures !CvcOk(info.cvc, JsNumber) && Validate(info, JsNumber).Some?
    ensures CardNumberOk(info.cardNumber, JsNumber) && ExpiryOk(info.expiryDate) ==>
              Validate(info, JsNumber) == Some(InvalidCvc)
  {
    ForeignCharIsNaN(info.cvc, k);
  }

  /** Letters in a card number are refused by the rule as written. */
  lemma LettersCardNumberRefused()
    ensures !CardNumberOk("zzzz zzzz zzzz zzzz", JsNumber)
  {
    ForeignCharInCardNumber("zzzz zzzz zzzz zzzz", 0);
  }

  /** A CVC of letters is refused by the rule as written, although each letter is a hexadecimal digit. */
  lemma LettersCvcRefused()
    ensures !CvcOk("abc", JsNumber)
  {
    TrimOfSolidEnds("abc");
  }

  lemma AllDigitsAppend(a: string, b: string)
    requires AllAsciiDigits(a) && AllAsciiDigits(b)
    ensures AllAsciiDigits(a + b)
  {
    assert forall i :: |a| <= i < |a + b| ==> (a + b)[i] == b[i - |a|];
  }

  /** A card number written as four groups of four digits separated by single spaces is accepted. */
  lemma GroupedCardNumberAccepted(g1: string, g2: string, g3: string, g4: string)
    requires |g1| == |g2| == |g3| == |g4| == 4
    requires AllAsciiDigits(g1) && AllAsciiDigits(g2) && AllAsciiDigits(g3) && AllAsciiDigits(g4)
    ensures CardNumberOk(g1 + " " + g2 + " " + g3 + " " + g4, DigitsOnly)
  {
    RemoveWhitespaceOfSolid(g1);
    RemoveWhitespaceOfSolid(g2);
    RemoveWhitespaceOfSolid(g3);
    RemoveWhitespaceOfSolid(g4);
    var a := g1 + " " + g2;
    var b := a + " " + g3;
    SpaceDropped(g1, g2);
    SpaceDropped(a, g3);
    SpaceDropped(b, g4);
    AllDigitsAppend(g1, g2);
    AllDigitsAppend(g1 + g2, g3);
    AllDigitsAppend(g1 + g2 + g3, g4);
  }

  lemma SpaceDropped(x: string, y: string)
    ensures RemoveWhitespace(x + " " + y) == RemoveWhitespace(x) + RemoveWhitespace(y)
  {
    RemoveWhitespaceAppend(x + " ", y);
    RemoveWhitespaceAppend(x, " ");
    assert RemoveWhitespace(" ") == [];
  }

  // =====================================================================
  // The cart handed over in the navigation state, and the product lookup
  // =====================================================================

  /** A cart line `{productId, quantity}`; `None` is a missing property. */
  datatype CartLine = CartLine(productId: Option<Json>, quantity: Option<Json>)

  /** `cart.map(i => i.productId)`. */
  function ProductIds(cart: seq<CartLine>): (ids: seq<Option<Json>>)
    ensures |ids| == |cart|
    ensures forall i :: 0 <= i < |cart| ==> ids[i] == cart[i].productId
  {
    if cart == [] then [] else [cart[0].productId] + ProductIds(cart[1..])
  }

  /** `new Set(productIds.map(String))`. */
  function PurchasedKeys(ids: seq<Option<Json>>): (keys: set<string>)
    ensures forall i :: 0 <= i < |ids| ==> ToJsString(ids[i]) in keys
    ensures forall k :: k in keys ==> exists i :: 0 <= i < |ids| && ToJsString(ids[i]) == k
    ensures ids == [] <==> keys == {}
  {
    var keys := set i | 0 <= i < |ids| :: ToJsString(ids[i]);
    assert ids != [] ==> ToJsString(ids[0]) in keys;
    keys
  }

  /** `product._id === productId`. */
  predicate IsProduct(product: Json, productId: Option<Json>) {
    StrictEquals(Get(product, "_id"), productId)
  }

  /** `find` has looked at every product before index `i` without throwing or matching. */
  predicate PassedOver(products: seq<Json>, productId: Option<Json>, i: nat)
    requires i <= |products|
  {
    forall j :: 0 <= j < i ==> products[j] != Null && !IsProduct(products[j], productId)
  }

  /**
   * `getProductDetails(productId)`: `products.find(p => p._id === productId) || {}`.
   * The first product that matches is returned (a falsy one turns into `{}`),
   * `{}` when none does, and reading `_id` of a `null` product reached
   * before any match throws.
   */
  function ProductDetails(products: seq<Json>, productId: Option<Json>): (r: Result<Json, Fault>)
    ensures forall i :: 0 <= i < |products| && PassedOver(products, productId, i) && products[i] == Null ==>
              r == Failure(TypeError)
    ensures forall i :: 0 <= i < |products| && PassedOver(products, productId, i) && products[i] != Null &&
                        IsProduct(products[i], productId) ==>
              r == Success(if Truthy(Some(products[i])) then products[i] else Obj([]))
    ensures PassedOver(products, productId, |products|) ==> r == Success(Obj([]))
  {
    if products == [] then Success(Obj([]))
    else if products[0] == Null then Failure(TypeError)
    else if IsProduct(products[0], productId) then
      Success(if Truthy(Some(products[0])) then products[0] else Obj([]))
    else
      var r := ProductDetails(products[1..], productId);
      assert forall i :: 1 <= i <= |products| && PassedOver(products, productId, i) ==>
               PassedOver(products[1..], productId, i - 1);
      r
  }

  /** `a || b`: the first operand when it is truthy, the second otherwise. */
  function Or(a: Option<Json>, b: Option<Json>): Option<Json> {
    if Truthy(a) then a else b
  }

  const NoAddress := "No address provided"

  /**
   * `address || user?.address || 'No address provided'`: the first truthy
   * candidate, so the address sent with an order is never empty.
   */
  function DeliveryAddress(address: Option<Json>, user: Json): (r: Json)
    ensures Truthy(Some(r))
    ensures Truthy(address) ==> Some(r) == address
    ensures !Truthy(address) && Truthy(Get(user, "address")) ==> Some(r) == Get(user, "address")
    ensures !Truthy(address) && !Truthy(Get(user, "address")) ==> r == Str(NoAddress)
  {
    Or(Or(address, Get(user, "address")), Some(Str(NoAddress))).value
  }

  // =====================================================================
  // The locally cached cart
  // =====================================================================

  /** `a` is `b` with some elements deleted, the rest in their original order. */
  predicate IsSubsequence<T(==)>(a: seq<T>, b: seq<T>) {
    if a == [] then true
    else if b == [] then false
    else (a[0] == b[0] && IsSubsequence(a[1..], b[1..])) || IsSubsequence(a, b[1..])
  }

  lemma {:induction false} SubsequenceIsNoLonger<T>(a: seq<T>, b: seq<T>)
    requires IsSubsequence(a, b)
    ensures |a| <= |b|
  {
    if a != [] {
      if a[0] == b[0] && IsSubsequence(a[1..], b[1..]) {
        SubsequenceIsNoLonger(a[1..], b[1..]);
      } else {
        SubsequenceIsNoLonger(a, b[1..]);
      }
    }
  }

  /** `String(line.productId)`. */
  function LineKey(line: Json): (key: string)
    ensures Get(line, "productId").None? ==> key == "undefined"
    ensures forall id :: Get(line, "productId") == Some(Str(id)) ==> key == id
  {
    ToJsString(Get(line, "productId"))
  }

  /**
   * `lines.filter(line => !purchased.has(String(line.productId)))`. Reading
   * `productId` of a `null` line throws, so the whole filter does. Otherwise
   * the result keeps, in order and with their multiplicity, exactly the lines
   * whose key was not purchased.
   */
  function RemainingLines(lines: seq<Json>, purchased: set<string>): (r: Result<seq<Json>, Fault>)
    ensures r.Failure? <==> Null in lines
    ensures r.Success? ==> IsSubsequence(r.value, lines)
    ensures r.Success? ==> forall x :: x in r.value ==> LineKey(x) !in purchased
    ensures r.Success? ==> forall x :: LineKey(x) !in purchased ==> multiset(r.value)[x] == multiset(lines)[x]
  {
    if lines == [] then Success([])
    else if lines[0] == Null then Failure(TypeError)
    else
      var tail := RemainingLines(lines[1..], purchased);
      assert lines == [lines[0]] + lines[1..];
      match tail
      case Failure(e) => Failure(e)
      case Success(kept) =>
        if LineKey(lines[0]) in purchased then
          assert kept == [] || IsSubsequence(kept, lines[1..]);
          Success(kept)
        else
          assert ([lines[0]] + kept)[1..] == kept;
          Success([lines[0]] + kept)
  }

  /**
   * The order branch's read of the cached cart:
   * `JSON.parse(localStorage.getItem('cricketCart') || '[]')`, then the filter.
   * Text that does not decode throws a SyntaxError; a decoded value that is not
   * an array has no `filter` and throws a TypeError.
   */
  function RemainingLocalCart(stored: Option<string>, purchased: set<string>): (r: Result<seq<Json>, Fault>)
    ensures stored.None? || stored == Some("") ==> r == Success([])
    ensures stored.Some? && stored.value != "" ==>
              (r.Failure? <==> match Parse(stored.value)
                               case None => true
                               case Some(v) => !v.Arr? || Null in v.items)
  {
    ParseStringify(Arr([]));
    assert Stringify(Arr([])) == "[]";
    var text := if stored.Some? && stored.value != "" then stored.value else "[]";
    match Parse(text)
    case None => Failure(SyntaxError)
    case Some(Arr(lines)) => RemainingLines(lines, purchased)
    case Some(_) => Failure(TypeError)
  }

  /** A cart the screen wrote itself reads back and filters like the lines it holds; no cart at all filters to none. */
  lemma LocalCartRoundTrip(lines: seq<Json>, purchased: set<string>)
    ensures RemainingLocalCart(Some(Stringify(Arr(lines))), purchased) == RemainingLines(lines, purchased)
    ensures RemainingLocalCart(None, purchased) == Success([])
  {
    ParseStringify(Arr(lines));
    ParseStringify(Arr([]));
  }

  /**
   * After paying for product ids `ids`, every remaining line's id differs,
   * as a string, from each of them, and the remaining cart is no longer than
   * before.
   */
  lemma PurchasedLinesAreGone(lines: seq<Json>, ids: seq<Option<Json>>)
    requires Null !in lines
    ensures RemainingLines(lines, PurchasedKeys(ids)).Success?
    ensures var kept := RemainingLines(lines, PurchasedKeys(ids)).value;
            && |kept| <= |lines|
            && forall x, i :: x in kept && 0 <= i < |ids| ==> LineKey(x) != ToJsString(ids[i])
  {
    var kept := RemainingLines(lines, PurchasedKeys(ids)).value;
    SubsequenceIsNoLonger(kept, lines);
  }

  // =====================================================================
  // Paying
  // =====================================================================

  const CartKey := "cricketCart"
  const NotificationKey := "latestNotification"
  const EnrollmentDataKey := "paymentEnrollmentData"

  const OrderNotice := "Thank you! Your order has been placed successfully. You can track your order in the 'My Orders' section."
  const EnrollmentNotice := "Thank you! Your enrollment payment has been processed successfully. You can manage your program from your profile page."

  /** The state the screen is opened with; `None` is a missing property. */
  datatype PaymentContext = PaymentContext(
    cart: seq<CartLine>,
    address: Option<Json>,
    enrollment: Option<Json>,
    program: Option<Json>,
    amount: Option<Json>,
    kind: Option<Json>,
    cartToken: Option<Json>)

  /**
   * How the one request of a payment ended: with the response's `data`, or
   * rejected with the text `err.response?.data?.message || err.message`.
   */
  datatype Reply = Replied(data: Json) | Rejected(message: string)

  /** The body of the request sent (the payment date, read from the clock, is left out). */
  datatype Request =
    | PaySelected(cartToken: Option<Json>, productIds: seq<Option<Json>>, customerId: Option<Json>, address: Json)
    | EnrollmentPayment(enrollmentId: Option<Json>, userId: Option<Json>, amount: Option<Json>)

  /** Where the screen goes next. */
  datatype Navigation = Stay | ToOrders(order: Option<Json>, payment: Option<Json>) | ToProfile

  /** The banner text for a failed payment; the message can be read back from it. */
  function PaymentError(message: string): (banner: string)
    ensures |banner| == |message| + 45
    ensures banner[..26] == "Error processing payment: " && banner[26..|banner| - 19] == message
    ensures banner[|banner| - 19..] == ". Please try again."
  {
    "Error processing payment: " + message + ". Please try again."
  }

  function Notification(message: string, timestamp: string, kind: string): Json {
    Obj([Member("message", Str(message)), Member("timestamp", Str(timestamp)), Member("type", Str(kind))])
  }

  /** `{enrollment, program}`; `JSON.stringify` drops a property that is `undefined`. */
  function EnrollmentRecord(enrollment: Option<Json>, program: Option<Json>): Json {
    Obj((if enrollment.Some? then [Member("enrollment", enrollment.value)] else []) +
        (if program.Some? then [Member("program", program.value)] else []))
  }

  /** What a payment attempt leaves: the store, the error banner it set (if any), the request sent (if any), where it goes. */
  datatype Effect = Effect(items: map<string, string>, error: Option<string>, sent: Option<Request>, next: Navigation)

  /**
   * The session read at the start of `handlePay`:
   * `JSON.parse(localStorage.getItem('userInfo'))` followed by `.token`. A
   * missing key parses as `null`, and reading `token` of `null` throws, as
   * does text that does not decode.
   */
  predicate SessionReadable(items: map<string, string>): (readable: bool)
    ensures readable <==> && SessionManager.UserInfoKey in items
                          && Parse(items[SessionManager.UserInfoKey]).Some?
                          && Parse(items[SessionManager.UserInfoKey]).value != Null
    ensures SessionManager.LoggedIn(items) ==> readable
  {
    assert Parse("null") == Some(Null) by {
      ParseStringify(Null);
    }
    var session := Parse(match Lookup(items, SessionManager.UserInfoKey) case Some(t) => t case None => "null");
    session.Some? && session.value != Null
  }

  /** `handlePay` once the form has been accepted. `faultMessage` is the engine's text for an exception it throws. */
  function PayEffect(items: map<string, string>, ctx: PaymentContext, user: Json, userId: Option<Json>,
                     reply: Reply, timestamp: string, faultMessage: string): (r: Effect)
    ensures ctx.kind == Some(Str("enrollment")) ==> WritesOnly(items, r.items, {EnrollmentDataKey, NotificationKey})
    ensures ctx.kind != Some(Str("enrollment")) ==> WritesOnly(items, r.items, {CartKey, NotificationKey})
    ensures !SessionReadable(items) ==>
              r.items == items && r.sent.None? && r.next == Stay && r.error == Some(PaymentError(faultMessage))
  {
    if !SessionReadable(items) then Effect(items, Some(PaymentError(faultMessage)), None, Stay)
    else if ctx.kind == Some(Str("enrollment")) then EnrollmentEffect(items, ctx, userId, reply, timestamp, faultMessage)
    else OrderEffect(items, ctx, user, userId, reply, timestamp, faultMessage)
  }

  /** The enrollment branch: reading `enrollment._id` of a missing or `null` enrollment throws before anything is sent. */
  function EnrollmentEffect(items: map<string, string>, ctx: PaymentContext, userId: Option<Json>,
                            reply: Reply, timestamp: string, faultMessage: string): (r: Effect)
    ensures WritesOnly(items, r.items, {EnrollmentDataKey, NotificationKey})
    ensures ctx.enrollment.None? || ctx.enrollment == Some(Null) ==>
              r.sent.None? && r.items == items && r.next == Stay && r.error == Some(PaymentError(faultMessage))
    ensures reply.Rejected? ==> r.items == items && r.next == Stay && r.error.Some?
    ensures r.next != Stay ==>
              && r.error == None && reply.Replied? && r.next == ToProfile
              && NotificationKey in r.items
              && r.items[NotificationKey] == Stringify(Notification(EnrollmentNotice, timestamp, "enrollment_success"))
  {
    if ctx.enrollment.None? || ctx.enrollment.value == Null then
      Effect(items, Some(PaymentError(faultMessage)), None, Stay)
    else
      var request := EnrollmentPayment(Get(ctx.enrollment.value, "_id"), userId, ctx.amount);
      match reply
      case Rejected(m) => Effect(items, Some(PaymentError(m)), Some(request), Stay)
      case Replied(data) =>
        if data == Null then Effect(items, Some(PaymentError(faultMessage)), Some(request), Stay)
        else
          var record := EnrollmentRecord(Get(data, "data"), ctx.program);
          var notice := Notification(EnrollmentNotice, timestamp, "enrollment_success");
          Effect(items[EnrollmentDataKey := Stringify(record)][NotificationKey := Stringify(notice)],
                 None, Some(request), ToProfile)
  }

  /**
   * The order branch: send the cart's product ids, then drop the purchased
   * lines from the cached cart, leave a notification and go to the orders
   * view. Reading `order` of a `null` response body throws after the
   * writes.
   */
  function OrderEffect(items: map<string, string>, ctx: PaymentContext, user: Json, userId: Option<Json>,
                       reply: Reply, timestamp: string, faultMessage: string): (r: Effect)
    ensures WritesOnly(items, r.items, {CartKey, NotificationKey})
    ensures reply.Rejected? ==> r.items == items && r.next == Stay && r.error == Some(PaymentError(reply.message))
    ensures r.next != Stay ==>
              && r.error == None && reply.Replied? && r.next.ToOrders?
              && NotificationKey in r.items
              && r.items[NotificationKey] == Stringify(Notification(OrderNotice, timestamp, "order_success"))
  {
    var ids := ProductIds(ctx.cart);
    var request := PaySelected(ctx.cartToken, ids, userId, DeliveryAddress(ctx.address, user));
    match reply
    case Rejected(m) => Effect(items, Some(PaymentError(m)), Some(request), Stay)
    case Replied(data) =>
      match RemainingLocalCart(Lookup(items, CartKey), PurchasedKeys(ids))
      case Failure(_) => Effect(items, Some(PaymentError(faultMessage)), Some(request), Stay)
      case Success(remaining) =>
        var notice := Notification(OrderNotice, timestamp, "order_success");
        var written := items[CartKey := Stringify(Arr(remaining))][NotificationKey := Stringify(notice)];
        if data == Null then Effect(written, Some(PaymentError(faultMessage)), Some(request), Stay)
        else Effect(written, None, Some(request), ToOrders(Get(data, "order"), Get(data, "payment")))
  }

  /** The store after a payment: `items` with some of `keys` written and nothing removed. */
  predicate WritesOnly(items: map<string, string>, after: map<string, string>, keys: set<string>) {
    && items.Keys <= after.Keys
    && forall k :: k in after && k !in keys ==> k in items && after[k] == items[k]
  }

  /** A rejected request or an unreadable session changes no key and stays on the screen with an error. */
  lemma FailedPaymentWritesNothing(items: map<string, string>, ctx: PaymentContext, user: Json, userId: Option<Json>,
                                   reply: Reply, timestamp: string, faultMessage: string)
    ensures var e := PayEffect(items, ctx, user, userId, reply, timestamp, faultMessage);
            (reply.Rejected? || !SessionReadable(items)) ==> e.items == items && e.next == Stay && e.error.Some?
    ensures var e := PayEffect(items, ctx, user, userId, reply, timestamp, faultMessage);
            !SessionReadable(items) ==> e.sent == None && e.error == Some(PaymentError(faultMessage))
    ensures var e := PayEffect(items, ctx, user, userId, reply, timestamp, faultMessage);
            SessionReadable(items) && ctx.kind != Some(Str("enrollment")) && reply.Rejected? ==>
              e.error == Some(PaymentError(reply.message))
  {
  }

  /**
   * A paid order leaves in the cached cart exactly the lines that were not
   * bought (in order, with their multiplicity) and sends the cart's product
   * ids with an address that is never empty.
   */
  lemma PaidOrderReconcilesCart(items: map<string, string>, ctx: PaymentContext, user: Json, userId: Option<Json>,
                                data: Json, timestamp: string, faultMessage: string, lines: seq<Json>)
    requires SessionReadable(items) && ctx.kind != Some(Str("enrollment"))
    requires CartKey in items && Parse(items[CartKey]) == Some(Arr(lines)) && Null !in lines
    ensures var e := PayEffect(items, ctx, user, userId, Replied(data), timestamp, faultMessage);
            var ids := ProductIds(ctx.cart);
            && e.sent.Some? && e.sent.value.PaySelected?
            && e.sent.value.productIds == ids && |ids| == |ctx.cart|
            && Truthy(Some(e.sent.value.address))
            && CartKey in e.items
            && exists kept ::
                 && Parse(e.items[CartKey]) == Some(Arr(kept))
                 && IsSubsequence(kept, lines)
                 && (forall x :: x in kept ==> LineKey(x) !in PurchasedKeys(ids))
                 && (forall x :: LineKey(x) !in PurchasedKeys(ids) ==> multiset(kept)[x] == multiset(lines)[x])
    ensures var e := PayEffect(items, ctx, user, userId, Replied(data), timestamp, faultMessage);
            data != Null ==> e.error == None && e.next == ToOrders(Get(data, "order"), Get(data, "payment"))
  {
    var ids := ProductIds(ctx.cart);
    var e := PayEffect(items, ctx, user, userId, Replied(data), timestamp, faultMessage);
    assert e == OrderEffect(items, ctx, user, userId, Replied(data), timestamp, faultMessage);
    var kept := PaidOrderStoresRemaining(items, ctx, user, userId, data, timestamp, faultMessage, lines);
    ParseStringify(Arr(kept));
  }

  /** The order branch on a paid request: the cart written back is the filtered cart. */
  lemma PaidOrderStoresRemaining(items: map<string, string>, ctx: PaymentContext, user: Json, userId: Option<Json>,
                                 data: Json, timestamp: string, faultMessage: string, lines: seq<Json>)
      returns (kept: seq<Json>)
    requires CartKey in items && Parse(items[CartKey]) == Some(Arr(lines)) && Null !in lines
    ensures RemainingLines(lines, PurchasedKeys(ProductIds(ctx.cart))) == Success(kept)
    ensures var e := OrderEffect(items, ctx, user, userId, Replied(data), timestamp, faultMessage);
            && e.sent == Some(PaySelected(ctx.cartToken, ProductIds(ctx.cart), userId, DeliveryAddress(ctx.address, user)))
            && CartKey in e.items && e.items[CartKey] == Stringify(Arr(kept))
            && (data != Null ==> e.error == None && e.next == ToOrders(Get(data, "order"), Get(data, "payment")))
  {
    var purchased := PurchasedKeys(ProductIds(ctx.cart));
    assert items[CartKey] != "";
    kept := RemainingLines(lines, purchased).value;
    assert RemainingLocalCart(Lookup(items, CartKey), purchased) == Success(kept);
  }

  /** Leaving the screen after paying means the payment succeeded and its notification is stored. */
  lemma SuccessLeavesNotification(items: map<string, string>, ctx: PaymentContext, user: Json, userId: Option<Json>,
                                  reply: Reply, timestamp: string, faultMessage: string)
    ensures var e := PayEffect(items, ctx, user, userId, reply, timestamp, faultMessage);
            e.next != Stay ==>
              && e.error == None && reply.Replied?
              && NotificationKey in e.items
              && Parse(e.items[NotificationKey]) ==
                   Some(if e.next.ToProfile? then Notification(EnrollmentNotice, timestamp, "enrollment_success")
                        else Notification(OrderNotice, timestamp, "order_success"))
  {
    ParseStringify(Notification(EnrollmentNotice, timestamp, "enrollment_success"));
    ParseStringify(Notification(OrderNotice, timestamp, "order_success"));
  }

  // =====================================================================
  // Opening the screen and what it shows
  // =====================================================================

  const LoginRequired := "Please log in to continue with payment."
  const ProfileFailed := "Failed to load user details."

  /**
   * The error `fetchUserDetails` leaves when the screen opens: a login
   * prompt without a session or user id; a profile failure when the stored
   * session is absent, does not decode or decodes to `null` (reading its
   * `token` throws), or when the request fails (`profile` is `None`). A
   * `null` body is also reported here as the profile failure, which the
   * screen does not do: its `email` is read inside the state updater passed
   * to `setPaymentInfo`, which React runs while rendering, outside the `try`,
   * so the render throws and the screen is torn down instead.
   */
  function MountError(items: map<string, string>, userId: Option<Json>, loggedIn: bool, profile: Option<Json>): (r: Option<string>)
    ensures r == Some(LoginRequired) <==> !loggedIn || !Truthy(userId)
    ensures r == None <==> loggedIn && Truthy(userId) && SessionReadable(items) && profile.Some? && profile.value != Null
    ensures r == None || r == Some(LoginRequired) || r == Some(ProfileFailed)
  {
    if !loggedIn || !Truthy(userId) then Some(LoginRequired)
    else if !SessionReadable(items) || profile.None? || profile.value == Null then Some(ProfileFailed)
    else None
  }

  /** `response.data.email || ''`, as the text the email field holds. */
  function EmailText(profile: Json): (email: string)
    ensures !Truthy(Get(profile, "email")) ==> email == ""
    ensures forall e :: Get(profile, "email") == Some(Str(e)) ==> email == e
  {
    var email := Get(profile, "email");
    if Truthy(email) then ToJsString(email) else ""
  }

  /** What the screen shows: the loading text, the error page, or the form with its banner slot. */
  datatype Screen = LoadingView | ErrorView(message: string) | FormView(banner: Option<string>)

  /**
   * The render as written: the loading text while anything is loading, the
   * error page whenever an error is set, and otherwise the form. The form's
   * banner slot is therefore only ever reached with no error in it.
   */
  function RenderedScreen(loading: bool, error: Option<string>): (s: Screen)
    ensures s.FormView? <==> !loading && error.None?
    ensures s.FormView? ==> s.banner.None?
    ensures !loading && error.Some? ==> s == ErrorView(error.value)
  {
    if loading then LoadingView
    else if error.Some? then ErrorView(error.value)
    else FormView(error)
  }

  /**
   * As written, a refused card number replaces the whole form by the error
   * page: the card cannot be corrected in place, and the banner above the
   * Pay button is never seen.
   */
  lemma RefusedFormHidesForm(info: PaymentInfo, check: NumericCheck)
    requires Validate(info, check).Some?
    ensures RenderedScreen(false, Some(Message(Validate(info, check).value))).ErrorView?
    ensures RenderedScreen(false, Some(Message(Validate(info, check).value))) != FormView(Some(Message(Validate(info, check).value)))
  {
  }

  /**
   * The render evidently intended: only a failure while opening the screen
   * replaces the form; a refused form or a failed payment shows in the
   * banner above the Pay button, with the form still there.
   */
  function IntendedScreen(loading: bool, mountError: Option<string>, error: Option<string>): (s: Screen)
    ensures !loading && mountError.None? ==> s.FormView? && s.banner == error
    ensures !loading && mountError.Some? ==> s == ErrorView(mountError.value)
    ensures loading ==> s == LoadingView
  {
    if loading then LoadingView
    else if mountError.Some? then ErrorView(mountError.value)
    else FormView(error)
  }

  /** The two renders agree on every state reached without an error after opening. */
  lemma RendersAgreeWithoutError(loading: bool, mountError: Option<string>)
    ensures RenderedScreen(loading, mountError) == IntendedScreen(loading, mountError, mountError)
    ensures RenderedScreen(loading, None) == IntendedScreen(loading, None, None)
  {
  }

  // =====================================================================
  // The screen's state
  // =====================================================================

  /**
   * The payment screen's state: the form, the error banner and the loading
   * flag, with the store, the navigation state, the current user's id, the
   * fetched profile and catalogue, and the numeric test the form's rules use
   * (`JsNumber` as written).
   */
  class Checkout {
    const storage: Storage
    const context: PaymentContext
    const userId: Option<Json>
    const check: NumericCheck
    const mountError: Option<string>
    var user: Json
    var products: seq<Json>
    var paymentInfo: PaymentInfo
    var error: Option<string>
    var loading: bool

    /** What the screen shows as written. */
    function Shown(): Screen
      reads this
    {
      RenderedScreen(loading, error)
    }

    /** What the screen would show with the corrected render, which keeps the form after opening. */
    function IntendedView(): Screen
      reads this
    {
      IntendedScreen(loading, mountError, error)
    }

    /**
     * The screen once its mount-time requests have settled. `loggedIn` is
     * the session check's answer and `profile` the profile request's body,
     * `None` when it failed.
     */
    constructor (storage: Storage, context: PaymentContext, userId: Option<Json>, loggedIn: bool,
                 profile: Option<Json>, products: seq<Json>, check: NumericCheck)
      ensures this.storage == storage && this.context == context && this.userId == userId
      ensures this.products == products && this.check == check
      ensures mountError == MountError(storage.items, userId, loggedIn, profile)
      ensures error == mountError && !loading
      ensures user == if loggedIn && Truthy(userId) && SessionReadable(storage.items) && profile.Some?
                      then profile.value else Null
      ensures paymentInfo == if mountError.None? then WithField(InitialPaymentInfo, Email, EmailText(profile.value))
                             else InitialPaymentInfo
    {
      this.storage := storage;
      this.context := context;
      this.userId := userId;
      this.products := products;
      this.check := check;
      var fault := MountError(storage.items, userId, loggedIn, profile);
      mountError := fault;
      error := fault;
      user := Null;
      paymentInfo := InitialPaymentInfo;
      if loggedIn && Truthy(userId) && SessionReadable(storage.items) && profile.Some? {
        user := profile.value;
        if profile.value != Null {
          paymentInfo := WithField(InitialPaymentInfo, Email, EmailText(profile.value));
        }
      }
      loading := false;
    }

    method HandleChange(field: FormField, value: string)
      modifies this`paymentInfo
      ensures paymentInfo == WithField(old(paymentInfo), field, value)
    {
      paymentInfo := WithField(paymentInfo, field, value);
    }

    /** The validation chain; sets or clears the error banner. */
    method ValidatePaymentInfo() returns (ok: bool)
      modifies this`error
      ensures ok <==> Validate(paymentInfo, check).None?
      ensures error == if ok then None else Some(Message(Validate(paymentInfo, check).value))
      ensures !ok && !loading ==> Shown() == ErrorView(Message(Validate(paymentInfo, check).value))
      ensures !ok && !loading && mountError.None? ==> IntendedView() == FormView(error)
    {
      if !CardNumberOk(paymentInfo.cardNumber, check) {
        error := Some(Message(InvalidCardNumber));
        return false;
      }
      if !ExpiryOk(paymentInfo.expiryDate) {
        error := Some(Message(InvalidExpiry));
        return false;
      }
      if !CvcOk(paymentInfo.cvc, check) {
        error := Some(Message(InvalidCvc));
        return false;
      }
      if !NameOk(paymentInfo.cardholderName) {
        error := Some(Message(MissingCardholderName));
        return false;
      }
      error := None;
      return true;
    }

    /**
     * `handlePay`, with the request's outcome, the clock's reading and the
     * text of any exception the engine throws supplied from outside.
     */
    method HandlePay(reply: Reply, timestamp: string, faultMessage: string) returns (sent: Option<Request>, next: Navigation)
      modifies this, storage
      ensures paymentInfo == old(paymentInfo) && user == old(user) && products == old(products)
      ensures Validate(paymentInfo, check).Some? ==>
                && error == Some(Message(Validate(paymentInfo, check).value))
                && loading == old(loading) && storage.items == old(storage.items)
                && sent == None && next == Stay
      ensures Validate(paymentInfo, check).None? ==>
                && !loading
                && Effect(storage.items, error, sent, next) ==
                   PayEffect(old(storage.items), context, user, userId, reply, timestamp, faultMessage)
    {
      sent, next := None, Stay;
      var valid := ValidatePaymentInfo();
      if !valid {
        return;
      }
      loading := true;
      sent, next := PayAccepted(reply, timestamp, faultMessage);
      loading := false;
    }

    /** The `try` block of `handlePay`: read the session, then take the enrollment or the order branch. */
    method PayAccepted(reply: Reply, timestamp: string, faultMessage: string) returns (sent: Option<Request>, next: Navigation)
      requires error == None
      modifies this`error, storage
      ensures Effect(storage.items, error, sent, next) ==
              PayEffect(old(storage.items), context, user, userId, reply, timestamp, faultMessage)
    {
      sent, next := None, Stay;
      var session := storage.GetItem(SessionManager.UserInfoKey);
      var parsed := Parse(if session.Some? then session.value else "null");
      if parsed.None? || parsed.value == Null {
        error := Some(PaymentError(faultMessage));
      } else if context.kind == Some(Str("enrollment")) {
        sent, next := PayForEnrollment(reply, timestamp, faultMessage);
      } else {
        sent, next := PayForOrder(reply, timestamp, faultMessage);
      }
    }

    method PayForEnrollment(reply: Reply, timestamp: string, faultMessage: string) returns (sent: Option<Request>, next: Navigation)
      requires error == None
      modifies this`error, storage
      ensures Effect(storage.items, error, sent, next) ==
              EnrollmentEffect(old(storage.items), context, userId, reply, timestamp, faultMessage)
    {
      sent, next := None, Stay;
      if context.enrollment.None? || context.enrollment.value == Null {
        error := Some(PaymentError(faultMessage));
        return;
      }
      sent := Some(EnrollmentPayment(Get(context.enrollment.value, "_id"), userId, context.amount));
      match reply {
        case Rejected(m) =>
          error := Some(PaymentError(m));
        case Replied(data) =>
          if data == Null {
            error := Some(PaymentError(faultMessage));
          } else {
            storage.SetItem(EnrollmentDataKey, Stringify(EnrollmentRecord(Get(data, "data"), context.program)));
            storage.SetItem(NotificationKey, Stringify(Notification(EnrollmentNotice, timestamp, "enrollment_success")));
            next := ToProfile;
          }
      }
    }

    method PayForOrder(reply: Reply, timestamp: string, faultMessage: string) returns (sent: Option<Request>, next: Navigation)
      requires error == None
      modifies this`error, storage
      ensures Effect(storage.items, error, sent, next) ==
              OrderEffect(old(storage.items), context, user, userId, reply, timestamp, faultMessage)
    {
      next := Stay;
      var productIds := ProductIds(context.cart);
      var deliveryAddress := DeliveryAddress(context.address, user);
      sent := Some(PaySelected(context.cartToken, productIds, userId, deliveryAddress));
      match reply {
        case Rejected(m) =>
          error := Some(PaymentError(m));
        case Replied(data) =>
          var currentLocal := storage.GetItem(CartKey);
          var remaining := RemainingLocalCart(currentLocal, PurchasedKeys(productIds));
          if remaining.Failure? {
            error := Some(PaymentError(faultMessage));
            return;
          }
          storage.SetItem(CartKey, Stringify(Arr(remaining.value)));
          storage.SetItem(NotificationKey, Stringify(Notification(OrderNotice, timestamp, "order_success")));
          if data == Null {
            error := Some(PaymentError(faultMessage));
          } else {
            next := ToOrders(Get(data, "order"), Get(data, "payment"));
          }
      }
    }
  }
}

=== FILE: session_manager.dfy ===
/**
 * The session and offline-cache helpers: each reads, writes or removes a
 * fixed key of `localStorage`, keeping values as JSON text, and none of them
 * lets a failure escape (a value that does not decode reads as `null`).
 */
module SessionManager {
  import opened Wrappers
  import opened Json
  import opened LocalStorage

  /** The authenticated session: a JSON object whose `token` authorises requests. */
  const UserInfoKey := "userInfo"
  const CachedProfileKey := "cachedUserProfile"
  const CachedEnrollmentsKey := "cachedUserEnrollments"

  /**
   * What the getters return for `key`: `null` when the key is absent or holds
   * the empty string, `null` when the text does not decode (the caught
   * exception), and the decoded value otherwise.
   */
  function ReadJson(items: map<string, string>, key: string): Json {
    if key in items && items[key] != "" then
      match Parse(items[key])
      case Some(v) => v
      case None => Null
    else Null
  }

  /** `isUserLoggedIn()`: the stored session decodes to a truthy value whose `token` is truthy. */
  predicate LoggedIn(items: map<string, string>) {
    && UserInfoKey in items && items[UserInfoKey] != ""
    && match Parse(items[UserInfoKey])
       case None => false
       case Some(v) => Truthy(Some(v)) && Truthy(Get(v, "token"))
  }

  /** The store after `clearAuthenticationOnly()`. */
  function WithoutAuthentication(items: map<string, string>): map<string, string> {
    items - {UserInfoKey}
  }

  /** The store after `clearAllCachedData()`. */
  function WithoutSessionData(items: map<string, string>): map<string, string> {
    items - {UserInfoKey, CachedProfileKey, CachedEnrollmentsKey}
  }

  method CacheUserProfile(storage: Storage, userData: Json)
    modifies storage
    ensures storage.items == old(storage.items)[CachedProfileKey := Stringify(userData)]
  {
    storage.SetItem(CachedProfileKey, Stringify(userData));
  }

  method CacheUserEnrollments(storage: Storage, enrollmentsData: Json)
    modifies storage
    ensures storage.items == old(storage.items)[CachedEnrollmentsKey := Stringify(enrollmentsData)]
  {
    storage.SetItem(CachedEnrollmentsKey, Stringify(enrollmentsData));
  }

  /** `data ? JSON.parse(data) : null` for one key, with the parse failure caught. */
  method ReadKey(storage: Storage, key: string) returns (value: Json)
    ensures value == ReadJson(storage.items, key)
  {
    var data := storage.GetItem(key);
    if data.None? || data.value == "" {
      return Null;
    }
    var decoded := Parse(data.value);
    value := if decoded.Some? then decoded.value else Null;
  }

  method GetCachedUserProfile(storage: Storage) returns (profile: Json)
    ensures profile == ReadJson(storage.items, CachedProfileKey)
  {
    profile := ReadKey(storage, CachedProfileKey);
  }

  method GetCachedUserEnrollments(storage: Storage) returns (enrollments: Json)
    ensures enrollments == ReadJson(storage.items, CachedEnrollmentsKey)
  {
    enrollments := ReadKey(storage, CachedEnrollmentsKey);
  }

  method GetCurrentUserInfo(storage: Storage) returns (userInfo: Json)
    ensures userInfo == ReadJson(storage.items, UserInfoKey)
  {
    userInfo := ReadKey(storage, UserInfoKey);
  }

  method IsUserLoggedIn(storage: Storage) returns (loggedIn: bool)
    ensures loggedIn == LoggedIn(storage.items)
  {
    var userInfo := storage.GetItem(UserInfoKey);
    if userInfo.None? || userInfo.value == "" {
      return false;
    }
    var parsed := Parse(userInfo.value);
    if parsed.None? {
      return false;
    }
    loggedIn := Truthy(Some(parsed.value)) && Truthy(Get(parsed.value, "token"));
  }

  method ClearAllCachedData(storage: Storage)
    modifies storage
    ensures storage.items == WithoutSessionData(old(storage.items))
  {
    storage.RemoveItem(UserInfoKey);
    storage.RemoveItem(CachedProfileKey);
    storage.RemoveItem(CachedEnrollmentsKey);
  }

  method ClearAuthenticationOnly(storage: Storage)
    modifies storage
    ensures storage.items == WithoutAuthentication(old(storage.items))
  {
    storage.RemoveItem(UserInfoKey);
  }

  // ---------------------------------------------------------------------
  // Properties
  // ---------------------------------------------------------------------

  /** A value cached under `key` reads back as itself, whatever else the store holds. */
  lemma ReadAfterWrite(items: map<string, string>, key: string, value: Json)
    ensures ReadJson(items[key := Stringify(value)], key) == value
  {
    ParseStringify(value);
  }

  /** Writing one key leaves what every other key reads as it was. */
  lemma ReadAfterOtherWrite(items: map<string, string>, key: string, other: string, text: string)
    requires other != key
    ensures ReadJson(items[key := text], other) == ReadJson(items, other)
  {
  }

  /** Caching a profile or enrollments neither logs anybody in nor out. */
  lemma CachingKeepsLogin(items: map<string, string>, text: string)
    ensures LoggedIn(items[CachedProfileKey := text]) == LoggedIn(items)
    ensures LoggedIn(items[CachedEnrollmentsKey := text]) == LoggedIn(items)
  {
  }

  /** A missing key, an empty value and an undecodable value all read as `null`. */
  lemma ReadJsonNullCases(items: map<string, string>, key: string)
    ensures key !in items ==> ReadJson(items, key) == Null
    ensures key in items && items[key] == "" ==> ReadJson(items, key) == Null
    ensures key in items && Parse(items[key]).None? ==> ReadJson(items, key) == Null
    ensures key in items && items[key] != "" && Parse(items[key]).Some? ==> ReadJson(items, key) == Parse(items[key]).value
  {
  }

  /**
   * With a session stored as `JSON.stringify(u)`, the user counts as logged in
   * exactly when `u` is an object with a truthy `token`.
   */
  lemma LoggedInIffTruthyToken(items: map<string, string>, u: Json)
    ensures LoggedIn(items[UserInfoKey := Stringify(u)]) <==> u.Obj? && Truthy(Get(u, "token"))
  {
    ParseStringify(u);
  }

  /** No stored session, or one that does not decode, means not logged in. */
  lemma NotLoggedInWithoutSession(items: map<string, string>)
    ensures UserInfoKey !in items ==> !LoggedIn(items)
    ensures UserInfoKey in items && Parse(items[UserInfoKey]).None? ==> !LoggedIn(items)
    ensures UserInfoKey in items && Parse(items[UserInfoKey]) == Some(Null) ==> !LoggedIn(items)
  {
  }

  /** After `clearAllCachedData()` nobody is logged in and all three keys read as `null`. */
  lemma ClearAllForgetsEverything(items: map<string, string>)
    ensures !LoggedIn(WithoutSessionData(items))
    ensures ReadJson(WithoutSessionData(items), UserInfoKey) == Null
    ensures ReadJson(WithoutSessionData(items), CachedProfileKey) == Null
    ensures ReadJson(WithoutSessionData(items), CachedEnrollmentsKey) == Null
    ensures forall k :: k != UserInfoKey && k != CachedProfileKey && k != CachedEnrollmentsKey ==>
              (k in WithoutSessionData(items) <==> k in items) &&
              (k in items ==> WithoutSessionData(items)[k] == items[k])
  {
  }

  /** After `clearAuthenticationOnly()` nobody is logged in, but both caches read as before. */
  lemma ClearAuthenticationKeepsCaches(items: map<string, string>)
    ensures !LoggedIn(WithoutAuthentication(items))
    ensures ReadJson(WithoutAuthentication(items), UserInfoKey) == Null
    ensures ReadJson(WithoutAuthentication(items), CachedProfileKey) == ReadJson(items, CachedProfileKey)
    ensures ReadJson(WithoutAuthentication(items), CachedEnrollmentsKey) == ReadJson(items, CachedEnrollmentsKey)
    ensures forall k :: k != UserInfoKey ==>
              (k in WithoutAuthentication(items) <==> k in items) &&
              (k in items ==> WithoutAuthentication(items)[k] == items[k])
  {
  }

  /** Clearing twice is clearing once, and clearing everything subsumes clearing the session. */
  lemma ClearingIsIdempotent(items: map<string, string>)
    ensures WithoutSessionData(WithoutSessionData(items)) == WithoutSessionData(items)
    ensures WithoutAuthentication(WithoutAuthentication(items)) == WithoutAuthentication(items)
    ensures WithoutSessionData(WithoutAuthentication(items)) == WithoutSessionData(items)
    ensures WithoutAuthentication(WithoutSessionData(items)) == WithoutSessionData(items)
  {
  }
}

=== FILE: wrappers.dfy ===
/** Option and Result, the two failure-carrying datatypes the model uses. */
module Wrappers {

  /** `None` stands for JavaScript's `undefined` (or a missing value), `Some(v)` for a present one. */
  datatype Option<+T> = None | Some(value: T)

  /** The outcome of a step that may throw: `Failure(e)` is the exception `e`. */
  datatype Result<+T, +E> = Success(value: T) | Failure(error: E)
}
